=== FILE: README.md ===
# docx2pdf, modelled in Dafny

docx2pdf converts Word documents to PDF by driving Microsoft Word. On Windows it calls
Word through COM. On macOS it runs a JavaScript-for-Automation helper and reads JSON
status lines from the helper's standard error. Everything else raises
`NotImplementedError`.

This project models the library's decision logic as pure functions and proves what that
logic guarantees. The modules follow the program's structure:

- `Paths`: `pathlib` paths as the library observes them. An absolute path is the list
  of its components. `Resolve` is lexical `Path.resolve()` against a working directory.
  `Str` renders a path, and `Name`, `Parent` and `Stem` follow `PurePath`.
- `Resolver`: `resolve_paths`. It resolves the input and optional output, then
  `Classify` picks batch or single-file mode, checks the three assertions, and derives
  the output path.
- `Batch`: the documents a batch converts. These are the `*.docx` entries of the input
  directory, each written to `output/(stem + ".pdf")`. They are in the order `sorted`
  gives `WindowsPath` objects: lower-cased names, and a stable sort for names that are
  equal once lower-cased. The module also covers the progress total and the sequence of
  Word events the Windows driver produces.
- `Status`: the macOS driver's loop over the helper's status lines, with a reference
  definition (`Expected`) that states the outcome without running the loop.
- `Dispatch`: `convert`, which resolves the paths and then selects a driver by
  `sys.platform`.
- `Word2Pdf`: the example script's `make_pdf_`. It derives the output name with
  `os.path.dirname`, `os.path.basename` and `str.split('.')`, then calls `convert`.
  `os.path` is `ntpath` on Windows and `posixpath` on macOS and Linux, so every function
  here takes the path flavour. `ntpath` splits off a drive (`C:` or `\\server\share`);
  `posixpath` has none. The output always joins folder and name with a literal
  backslash. On macOS that backslash is an ordinary character, so `x/a.docx` gives
  `x\a.pdf`, a file in the working directory rather than in `x`.
- `Text` and `Wrappers`: string searches, Python's code-point string order, ASCII
  lower-casing, and `Option`/`Result`.

Outside effects become parameters:

- The filesystem is a `FileSystem` value: the set of directories and each directory's
  listing.
- The platform is a string.
- The helper's standard error is a sequence of classified lines.
- Word's work is a sequence of `Export`/`Quit` events.

A failed `assert` in `resolve_paths` is an `Err` value; the model takes assertions to be enabled. The macOS driver's
`print`/`sys.exit(1)` is the `Aborted` outcome. `NotImplementedError` is the
`NotImplemented` failure.

The model follows the code, including where descriptions of the library promise more:

- Batch selection does not skip Word lock files (names starting with `~$`).
- The `.docx` and `.pdf` tests are case-sensitive `str.endswith` checks on the
  rendered path.
- The helper's exit status is never inspected.
- A missing Word application is not a distinct error.
- A status line whose JSON has no usable `"result"` entry, or that is not valid UTF-8,
  makes the loop raise (`Malformed` gives `Raised`); it is not skipped.
- A file named just `.docx` converts to `.docx.pdf`, because its stem is the whole name.
- `make_pdf_` cuts the name at the first dot anywhere in the path, including a dot in a
  folder name. `C:\my.dir\x.docx` gives `C:\my.dir\my.pdf`, and every document in that
  folder gives the same name.

## Model

| member | source | states |
|---|---|---|
| Paths.Resolve | docx2pdf/__init__.py:76-77 | resolving any text against a normalised working directory gives a normalised absolute path: every component is non-empty, not `.` or `..`, and free of separators |
| Paths.ResolveStr | docx2pdf/__init__.py:30-31 | resolving the rendering of a resolved path gives the same path for every working directory, so the Windows driver's second `resolve()` changes nothing |
| Paths.ResolveName | docx2pdf/__init__.py:76-77 | text ending in a separator and a valid component resolves to a path whose name is that component |
| Paths.ResolveTail | docx2pdf/__init__.py:76-77 | text ending in three or more characters without a separator resolves to a path whose name ends with those characters |
| Paths.Str | docx2pdf/__init__.py:81 | the rendering of a resolved path is non-empty and starts at the root |
| Paths.StrEndsWith | docx2pdf/__init__.py:89 | `str(path).endswith(s)` for a non-empty `s` without `/` holds exactly when the path's final component ends with `s` |
| Paths.Parent | docx2pdf/__init__.py:96 | a non-root path is its parent followed by its name |
| Paths.SnocParts | docx2pdf/__init__.py:24 | joining one component under a folder gives a path whose parent is the folder and whose name is the component |
| Paths.Stem | docx2pdf/__init__.py:92 | the stem is a prefix of the name; a suffix is removed exactly when the name has a dot after its first character and does not end in a dot, and then the stem is followed by the last dot |
| Resolver.PdfName | docx2pdf/__init__.py:92 | the derived name ends `.pdf` and, for a non-empty name, has the same stem as the name, so only the final suffix changes |
| Resolver.OutputPath | docx2pdf/__init__.py:77 | the output is treated as omitted exactly when it is `None` or the empty string; otherwise it is resolved to a normalised path |
| Resolver.ResolvePaths | docx2pdf/__init__.py:75-98 | on success, a batch has both paths as directories; a single file has a non-directory input whose path ends `.docx` and an output whose path ends `.pdf`; the input is the resolved input, and an omitted batch output is the input directory |
| Resolver.Classify | docx2pdf/__init__.py:79-97 | the same guarantees for an already-resolved input and output |
| Resolver.PdfNameIsComponent | docx2pdf/__init__.py:92 | for a path ending `.docx`, the derived name `stem + ".pdf"` is a valid single component |
| Resolver.EmptyOutputIsOmitted | docx2pdf/__init__.py:77 | an empty output string resolves exactly as an omitted output |
| Resolver.DirectoryInput | docx2pdf/__init__.py:79-86 | a directory input always gives a batch for that directory; it fails, with the output assertion, exactly when an output is given that is not a directory; otherwise it writes to the given directory or to the input directory |
| Resolver.ResolveFailures | docx2pdf/__init__.py:83-94 | each of the three assertion failures happens exactly under its triggering condition; the suffix tests look only at the final component |
| Resolver.SingleFileDestination | docx2pdf/__init__.py:87-97 | a file input is never a batch; its output is the derived name inside an output directory, or the explicit output unchanged, or (when omitted) a sibling of the input with the same stem and name `stem + ".pdf"` |
| Resolver.SiblingPdf | docx2pdf/__init__.py:96 | the default output sits in the input's folder, has the input's stem, and is named `stem + ".pdf"` |
| Resolver.ExplicitPdfOutput | docx2pdf/__init__.py:88-94 | a `.docx` input with an explicit non-directory output ending `.pdf` resolves to exactly the two resolved paths |
| Resolver.DotDocxKeepsItsName | docx2pdf/__init__.py:92 | a document named `.docx` converts to `.docx.pdf` |
| Text.LexLessEq | docx2pdf/__init__.py:23 | Python's `<=` on strings: a prefix comes before every text it starts |
| Text.LexTotal | docx2pdf/__init__.py:23 | any two names are ordered one way or the other by code points |
| Text.LexAntisymmetric | docx2pdf/__init__.py:23 | two names ordered both ways by code points are equal |
| Text.LexTransitive | docx2pdf/__init__.py:23 | the code-point order is transitive |
| Text.Lower | docx2pdf/__init__.py:23 | lower-casing keeps the length, turns each ASCII capital into its small letter, leaves every other character as it is, and leaves no capital |
| Text.LowerFixedPoints | docx2pdf/__init__.py:23 | a text is its own lower-case form exactly when it has no capital, so lower-casing twice is lower-casing once |
| Batch.NameTotal | docx2pdf/__init__.py:23 | any two names are ordered one way or the other once lower-cased |
| Batch.NameTransitive | docx2pdf/__init__.py:23 | the lower-cased order `sorted` uses is transitive |
| Batch.DocxEntries | docx2pdf/__init__.py:23 | the selection holds each listed name ending `.docx` as often as it is listed, and nothing else |
| Batch.Insert | docx2pdf/__init__.py:23 | inserting into a sorted sequence keeps it sorted and adds exactly that one element |
| Batch.Sort | docx2pdf/__init__.py:23 | the result is sorted by lower-cased name and is a permutation of the input |
| Batch.SortIsStable | docx2pdf/__init__.py:23 | for every lower-cased name, the entries that lower-case to it come out in the order they were listed: the sort is stable |
| Batch.InsertKey | docx2pdf/__init__.py:23 | inserting a name puts it in front of the names equal to it once lower-cased and keeps their order |
| Batch.SortedUnique | docx2pdf/__init__.py:23 | two sorted sequences with the same elements, no two equal ignoring case, are equal |
| Batch.CaseInsensitiveOrder | docx2pdf/__init__.py:23 | `B.docx` sorts after `a.docx` |
| Batch.EqualNamesKeepListingOrder | docx2pdf/__init__.py:23 | `b.docx` listed before `B.docx` stays before it: the sort is stable |
| Batch.Jobs | docx2pdf/__init__.py:22-34 | there are exactly as many conversions as the progress bar announces |
| Batch.JobsFor | docx2pdf/__init__.py:23-24 | one job per name, in order: it reads the name inside the input directory and writes its PDF name inside the output directory |
| Batch.Total | docx2pdf/__init__.py:61 | the total is 1 for a single file and never more than the directory lists for a batch |
| Batch.BatchJobs | docx2pdf/__init__.py:23-24 | a batch converts each `.docx` entry of the input directory as often as it is listed and nothing else; each job reads `input/name` and writes `output/(stem + ".pdf")` |
| Batch.BatchOrder | docx2pdf/__init__.py:23 | a batch converts in ascending order of lower-cased name |
| Batch.JobsIgnoreListingOrder | docx2pdf/__init__.py:23 | listings with the same entries in any order, no two equal ignoring case, give the same conversions |
| Batch.WordSession | docx2pdf/__init__.py:22-38 | one event per job, each an export, plus one more exactly when Word is not kept active |
| Batch.WordSessionConvertsJobs | docx2pdf/__init__.py:22-38 | Word exports every job in order, one progress tick each; `Quit` is the last event and happens exactly when Word is not kept active |
| Batch.SingleDocumentSession | docx2pdf/__init__.py:28-38 | a single document gives one export of the input to the output, then `Quit` unless Word is kept active |
| Status.Step | docx2pdf/__init__.py:63-72 | a line stops the loop exactly when it is blank, an error or malformed; otherwise only a success line adds a tick; stopping keeps the ticks so far |
| Status.Consume | docx2pdf/__init__.py:53-72 | the loop adds at most one tick per line |
| Status.Drain | docx2pdf/__init__.py:61-72 | the loop from zero ticks gives the reference outcome |
| Status.HaltIndex | docx2pdf/__init__.py:56-72 | the position of the first blank, error or malformed line: no earlier line stops the loop |
| Status.ConsumeIsExpected | docx2pdf/__init__.py:53-72 | the loop equals the reference outcome: the first stopping line decides, and the count is the number of success lines before it |
| Status.StopsAtFirstBlank | docx2pdf/__init__.py:55-58 | nothing after the first blank line is read |
| Status.SkipsIgnoredLines | docx2pdf/__init__.py:64-70 | removing a non-JSON line, or one whose result is neither success nor error, does not change the outcome |
| Status.CountsSuccesses | docx2pdf/__init__.py:68-69 | without stopping lines the loop reads everything and counts exactly the success lines |
| Status.FirstErrorAborts | docx2pdf/__init__.py:70-72 | the first error line aborts with its details after as many ticks as there were successes before it |
| Status.SuccessThenError | docx2pdf/__init__.py:68-72 | a success followed by an error aborts after exactly one tick |
| Dispatch.HelperArgs | docx2pdf/__init__.py:43-51 | the helper gets two absolute paths and a flag that is `true` exactly when Word is kept active and `false` otherwise |
| Dispatch.Convert | docx2pdf/__init__.py:101-110 | path failures come before the platform check; `NotImplemented` happens exactly when the paths resolve and the platform is neither `darwin` nor `win32`; each of those two reaches only its own driver |
| Dispatch.WindowsSingleFile | docx2pdf/__init__.py:105-106 | on Windows a single resolved document is exported to its resolved output, then Word quits unless kept active |
| Dispatch.MacRunFacts | docx2pdf/__init__.py:43-72 | on macOS the helper's path arguments resolve back to the descriptor's paths, the total is the number of conversions, and the status loop gives the reference outcome |
| Word2Pdf.DriveLength | examples/word2pdf/main.py:6-7 | `posixpath` has no drive; `ntpath` takes a drive letter, or a UNC prefix `\\server\share` with a non-empty server, where the share may be empty, ending at a separator or the end of the path |
| Word2Pdf.FolderLength | examples/word2pdf/main.py:6-7 | the final component starts after the drive or right after a separator, and contains no separator |
| Word2Pdf.Basename | examples/word2pdf/main.py:7 | `os.path.basename` is a separator-free suffix of the path after the drive that reaches back to the last separator, or to the drive when there is none |
| Word2Pdf.Dirname | examples/word2pdf/main.py:6 | `os.path.dirname` keeps the drive and drops the head's trailing separators, unless only separators follow the drive; then it keeps them all |
| Word2Pdf.SplitKeepsPath | examples/word2pdf/main.py:6-7 | the path is `os.path.dirname`, a run of separators, and `os.path.basename`: nothing else is lost |
| Word2Pdf.FileStem | examples/word2pdf/main.py:7 | the derived file name has neither dots nor separators, ends at the path's first dot, and starts after a separator or the drive |
| Word2Pdf.FirstDotInFinalComponent | examples/word2pdf/main.py:7 | when no folder contains a dot, the derived name is the final component up to its own first dot |
| Word2Pdf.DotInFolderFixesName | examples/word2pdf/main.py:7 | when a folder's text has a dot, every file below it derives the same name, cut from the folder text at that dot |
| Word2Pdf.NoDotKeepsBasename | examples/word2pdf/main.py:7 | a path without dots keeps its whole final component as the name |
| Word2Pdf.PdfPathFor | examples/word2pdf/main.py:6-8 | the derived output is the input's folder, a backslash, and a separator-free text ending with the name and `.pdf` |
| Word2Pdf.BareNameExample | examples/word2pdf/main.py:6-8 | on Windows a bare `a.b.docx` gives `\a.pdf`, at the root of the current drive |
| Word2Pdf.ShareExample | examples/word2pdf/main.py:6-8 | on Windows `\\s\t\x.docx` gives `\\s\t\\x.pdf`: the folder keeps the separator after the share, so the derived path has a doubled backslash |
| Word2Pdf.DottedFolderExample | examples/word2pdf/main.py:7-8 | a dot in a folder name cuts the name there: `C:\my.dir\x.docx` gives `C:\my.dir\my.pdf` |
| Word2Pdf.ShareRootExample | examples/word2pdf/main.py:6-8 | on Windows `\\s\t.docx` is all UNC drive, and so is the text before its dot: the name is empty and the output is `\\s\t.docx\.pdf` |
| Word2Pdf.PosixBackslashExample | examples/word2pdf/main.py:6-8 | on macOS `a\b.docx` keeps its backslash in the name and gives `\a\b.pdf` |
| Word2Pdf.PosixFolderExample | examples/word2pdf/main.py:6-10 | on macOS `x/a.docx` gives `x\a.pdf`, which resolves to a file of that name in the working directory, not inside `x` |
| Word2Pdf.WindowsDerivedName | examples/word2pdf/main.py:6-10 | on Windows the derived output resolves to a path named exactly `name.pdf` |
| Word2Pdf.PosixDerivedName | examples/word2pdf/main.py:6-10 | on macOS the derived output resolves to a path whose name ends with a backslash, the name and `.pdf` |
| Word2Pdf.DerivedOutputPassesPdfCheck | examples/word2pdf/main.py:8-10 | on every platform the derived output resolves to a name ending `.pdf`, so `convert` never rejects it for its suffix |
| Word2Pdf.MakePdf | examples/word2pdf/main.py:10 | on every platform the call never fails the output suffix check; it reports an unsupported platform exactly when both paths resolve |
| Word2Pdf.MakePdfOnWindows | examples/word2pdf/main.py:5-10 | on Windows, for a document input whose derived output is not a directory, Word exports the resolved input to the resolved derived path and then quits |

## Left out

- Word's COM interface (`Dispatch`, `Documents.Open`, `SaveAs` with format 17, `Close`,
  `Quit`) is a foreign call. Each document becomes one `Export(source, target)` event and
  the shutdown becomes `Quit`. COM errors and Word's own failures are not modelled.
- The macOS helper process (`osascript`, `convert.jxa`) is not modelled. Its arguments
  are modelled, and its standard error is a parameter: a sequence of already classified
  lines. Reading bytes, `rstrip` and UTF-8 decoding are folded into that classification.
  The helper's exit status is never inspected.
- `tqdm` progress bars are modelled only as the announced total and the tick count.
- `print(msg)` and `sys.exit(1)` become the `Aborted` outcome carrying the error
  details. The text of the `NotImplementedError` message is not modelled.
- The command-line interface (`cli`, argparse, `--version`) and `__version__` lookup are
  I/O and packaging, outside the conversion logic.
- `examples/word2pdf/gui.py` is a user interface. The `open_` branch of `make_pdf_`
  (`os.system`) starts an external viewer. Neither is modelled.
- Paths.Resolve: resolution is lexical. Symbolic links are not followed, and a Windows
  drive (`C:`) is kept as an ordinary first component. Drive-relative paths (`C:foo`),
  UNC shares and per-drive working directories are not modelled. A Windows text rooted
  without a drive (`\a.pdf`) resolves to the root of the model's single tree; Windows
  puts it at the root of the working directory's drive (`C:\a.pdf`). The final
  component, which is all the suffix checks read, is the same either way.
- Paths.Str: renders with `/` on both platforms, where Windows renders with `\` and a
  drive. The suffix checks depend only on the final component, which is the same either
  way.
- Batch.Sort: lower-cases ASCII letters only, where `str.lower` also lowers other
  letters. Windows `glob` matches `*.docx` case-insensitively; the model keeps the
  case-sensitive match.
- Text.Lower: lowers the ASCII capitals only. Python's `str.lower` also lowers other
  letters (`É` to `é`, for example), and some of them to more than one character.
- Batch.BatchOrder: states the lower-cased order; names that differ only beyond ASCII
  case are compared as if their other letters were already lower case.
- Batch.JobsIgnoreListingOrder: holds only when no two listed names are equal ignoring
  case. For such names the stable sort keeps the listing order, so different listing
  orders give different conversion orders.
- Batch.DocxEntries: treats every listed name alike, directories named `*.docx`
  included, as `glob` does.
- Paths.Stem: follows Python 3.8-3.13. Python 3.14 changed `PurePath.suffix` and
  `PurePath.stem` for names ending in a dot.
- Word2Pdf.DriveLength: follows Python 3.8-3.11. Python 3.12 changed how
  `ntpath.splitdrive` reads UNC prefixes.
- Resolver.ResolvePaths: assumes assertions are enabled. Under `python -O` the three
  `assert` statements of `resolve_paths` are removed, so it never fails, and a
  non-directory output for a batch or an output without `.pdf` is passed on unchecked.
- The filesystem is a snapshot. The PDFs Word writes during a batch do not change the
  listing, which `glob` has already read.

=== FILE: batch.dfy ===
/** Batch conversion: which entries of the input directory are converted, in what order,
    to which destinations, and the progress total announced beforehand. */
module Batch {
  import opened Text
  import opened Paths
  import opened Resolver

  /** The names a directory lists, in the operating system's order (none if unknown). */
  function Listing(fs: FileSystem, dir: Path): seq<string>
  {
    if dir in fs.listing then fs.listing[dir] else []
  }

  /** The names `glob("*.docx")` matches: those ending in `.docx`, case-sensitively. */
  function DocxEntries(names: seq<string>): (r: seq<string>)
    ensures forall n :: multiset(r)[n] == if EndsWith(n, DocxSuffix) then multiset(names)[n] else 0
    ensures forall i :: 0 <= i < |r| ==> EndsWith(r[i], DocxSuffix)
    ensures |r| <= |names|
  {
    if names == [] then []
    else
      assert names == [names[0]] + names[1..];
      (if EndsWith(names[0], DocxSuffix) then [names[0]] else []) + DocxEntries(names[1..])
  }

  /** How `sorted` orders two entries of one directory on Windows. `WindowsPath` objects
      compare their lower-cased parts, and entries of one directory share every part but
      the last, so the comparison is that of their lower-cased names. */
  predicate NameLessEq(a: string, b: string)
  {
    LexLessEq(Lower(a), Lower(b))
  }

  lemma NameReflexive(a: string)
    ensures NameLessEq(a, a)
  {
    LexReflexive(Lower(a));
  }

  lemma NameTotal(a: string, b: string)
    ensures NameLessEq(a, b) || NameLessEq(b, a)
  {
    LexTotal(Lower(a), Lower(b));
  }

  lemma NameTransitive(a: string, b: string, c: string)
    requires NameLessEq(a, b) && NameLessEq(b, c)
    ensures NameLessEq(a, c)
  {
    LexTransitive(Lower(a), Lower(b), Lower(c));
  }

  /** No two of the names are equal ignoring case, as in a Windows folder. */
  predicate CaseDistinct(m: multiset<string>)
  {
    forall a, b :: a in m && b in m && Lower(a) == Lower(b) ==> a == b
  }

  predicate Sorted(s: seq<string>)
  {
    forall i, j :: 0 <= i < j < |s| ==> NameLessEq(s[i], s[j])
  }

  /** Places `x` into the sorted sequence `s`, before the first element not below it, so
      that `x` precedes the elements that compare equal to it. */
  function Insert(x: string, s: seq<string>): (r: seq<string>)
    requires Sorted(s)
    ensures Sorted(r)
    ensures multiset(r) == multiset(s) + multiset{x}
  {
    if s == [] then [x]
    else if NameLessEq(x, s[0]) then
      forall j | 0 < j < |s| ensures NameLessEq(x, s[j]) {
        NameTransitive(x, s[0], s[j]);
      }
      [x] + s
    else
      NameTotal(x, s[0]);
      var rest := Insert(x, s[1..]);
      assert s == [s[0]] + s[1..];
      BoundsMerged(s[0], x, s[1..], rest);
      ConsSorted(s[0], rest);
      [s[0]] + rest
  }

  /** A lower bound of `x` and of every element of `s` bounds every element of a
      sequence that holds the elements of `s` and `x`. */
  lemma BoundsMerged(h: string, x: string, s: seq<string>, r: seq<string>)
    requires NameLessEq(h, x) && forall j :: 0 <= j < |s| ==> NameLessEq(h, s[j])
    requires multiset(r) == multiset(s) + multiset{x}
    ensures forall j :: 0 <= j < |r| ==> NameLessEq(h, r[j])
  {
    forall j | 0 <= j < |r| ensures NameLessEq(h, r[j]) {
      assert r[j] in multiset(r);
      if r[j] != x {
        assert r[j] in multiset(s);
        var k :| 0 <= k < |s| && s[k] == r[j];
      }
    }
  }

  /** A lower bound of a sorted sequence can be put in front of it. */
  lemma ConsSorted(h: string, r: seq<string>)
    requires Sorted(r) && forall j :: 0 <= j < |r| ==> NameLessEq(h, r[j])
    ensures Sorted([h] + r)
  {
    var s := [h] + r;
    forall i, j | 0 <= i < j < |s| ensures NameLessEq(s[i], s[j]) {
      if i > 0 {
        assert s[i] == r[i - 1] && s[j] == r[j - 1];
      } else {
        assert s[j] == r[j - 1];
      }
    }
  }

  /** `sorted(...)` on a directory's `WindowsPath` entries: ascending order of the
      lower-cased names, keeping the listing order of names that compare equal (the sort
      is stable, and each element is inserted before its equals from later on). */
  function Sort(s: seq<string>): (r: seq<string>)
    ensures Sorted(r)
    ensures multiset(r) == multiset(s)
  {
    if s == [] then []
    else
      assert s == [s[0]] + s[1..];
      Insert(s[0], Sort(s[1..]))
  }

  lemma SortedTail(s: seq<string>)
    requires Sorted(s) && s != []
    ensures Sorted(s[1..])
    ensures multiset(s[1..]) == multiset(s) - multiset{s[0]}
  {
    assert s == [s[0]] + s[1..];
  }

  /** The head of a sorted sequence is below every element of it. */
  lemma SortedHeadIsLeast(s: seq<string>, x: string)
    requires Sorted(s) && x in multiset(s)
    ensures NameLessEq(s[0], x)
  {
    var i :| 0 <= i < |s| && s[i] == x;
    if i == 0 {
      NameReflexive(x);
    }
  }

  /** Sorting leaves no choice when no two names are equal ignoring case: two sorted
      sequences with the same elements are equal, so the conversion order does not depend
      on the order the directory was listed in. */
  lemma {:induction false} SortedUnique(a: seq<string>, b: seq<string>)
    requires Sorted(a) && Sorted(b) && multiset(a) == multiset(b)
    requires CaseDistinct(multiset(a))
    ensures a == b
    decreases |a|
  {
    if a == [] {
      assert |b| == |multiset(b)| == |multiset(a)| == 0;
    } else {
      SortedSameHead(a, b);
      SortedUnique(a[1..], b[1..]);
      assert a == [a[0]] + a[1..];
      assert b == [b[0]] + b[1..];
    }
  }

  /** Two sorted sequences with the same elements, no two equal ignoring case, start
      alike and continue alike. */
  lemma SortedSameHead(a: seq<string>, b: seq<string>)
    requires Sorted(a) && Sorted(b) && multiset(a) == multiset(b) && a != []
    requires CaseDistinct(multiset(a))
    ensures b != [] && a[0] == b[0]
    ensures Sorted(a[1..]) && Sorted(b[1..]) && multiset(a[1..]) == multiset(b[1..])
    ensures CaseDistinct(multiset(a[1..]))
  {
    assert a[0] in multiset(b);
    assert b != [];
    assert b[0] in multiset(a);
    SortedHeadIsLeast(b, a[0]);
    SortedHeadIsLeast(a, b[0]);
    LexAntisymmetric(Lower(a[0]), Lower(b[0]));
    SortedTail(a);
    SortedTail(b);
  }

  /** The names of `s` that lower-case to `k`, in their order in `s`. */
  function Key(k: string, s: seq<string>): seq<string>
  {
    if s == [] then [] else (if Lower(s[0]) == k then [s[0]] else []) + Key(k, s[1..])
  }

  /** `sorted` is stable: names that are equal once lower-cased come out in the order
      they were listed. */
  lemma {:induction false} SortIsStable(k: string, s: seq<string>)
    ensures Key(k, Sort(s)) == Key(k, s)
  {
    if s != [] {
      SortIsStable(k, s[1..]);
      InsertKey(s[0], Sort(s[1..]), k);
    }
  }

  /** Inserting `x` puts it in front of the names that are equal to it once lower-cased. */
  lemma {:induction false} InsertKey(x: string, t: seq<string>, k: string)
    requires Sorted(t)
    ensures Key(k, Insert(x, t)) == (if Lower(x) == k then [x] else []) + Key(k, t)
    decreases |t|
  {
    if t == [] {
      KeyCons(k, x, []);
    } else if NameLessEq(x, t[0]) {
      KeyCons(k, x, t);
    } else {
      PassedNamesDiffer(x, t[0]);
      SortedTail(t);
      InsertKey(x, t[1..], k);
      InsertPasses(x, t);
      KeyAfterPassed(k, x, t[0], Insert(x, t[1..]), t[1..]);
    }
  }

  /** When `x` is not below the head, it is inserted into the tail. */
  lemma InsertPasses(x: string, t: seq<string>)
    requires Sorted(t) && t != [] && !NameLessEq(x, t[0])
    ensures Insert(x, t) == [t[0]] + Insert(x, t[1..])
    ensures [t[0]] + t[1..] == t
  {
    assert t == [t[0]] + t[1..];
    assert t != [] && !NameLessEq(x, t[0]);
  }

  /** Putting a name that differs from `x` in front of both sides keeps `x` in front of
      its equals. */
  lemma KeyAfterPassed(k: string, x: string, h: string, rest: seq<string>, tail: seq<string>)
    requires Lower(x) != Lower(h)
    requires Key(k, rest) == (if Lower(x) == k then [x] else []) + Key(k, tail)
    ensures Key(k, [h] + rest) == (if Lower(x) == k then [x] else []) + Key(k, [h] + tail)
  {
    KeyCons(k, h, rest);
    KeyCons(k, h, tail);
    if Lower(x) == k {
      assert Key(k, [h] + rest) == Key(k, rest);
    } else if Lower(h) == k {
      assert Key(k, [h] + rest) == [h] + Key(k, tail);
    }
  }

  lemma KeyCons(k: string, h: string, s: seq<string>)
    ensures Key(k, [h] + s) == (if Lower(h) == k then [h] else []) + Key(k, s)
  {
    assert ([h] + s)[1..] == s;
  }

  /** A name that `x` is not below is not equal to `x` once lower-cased. */
  lemma PassedNamesDiffer(x: string, y: string)
    requires !NameLessEq(x, y)
    ensures Lower(x) != Lower(y)
  {
    LexReflexive(Lower(x));
  }

  /** `B.docx` sorts after `a.docx`: the names are compared lower-cased. */
  lemma CaseInsensitiveOrder(s: seq<string>)
    requires s == ["B.docx", "a.docx"]
    ensures Sort(s) == ["a.docx", "B.docx"]
  {
    assert Lower("B.docx") == "b.docx";
    assert Lower("a.docx") == "a.docx";
    assert !NameLessEq("B.docx", "a.docx");
    assert Sort(s[1..]) == ["a.docx"];
  }

  /** Names equal ignoring case keep their listing order: `b.docx` stays before `B.docx`. */
  lemma EqualNamesKeepListingOrder(s: seq<string>)
    requires s == ["b.docx", "B.docx"]
    ensures Sort(s) == ["b.docx", "B.docx"]
  {
    assert Lower("b.docx") == "b.docx" == Lower("B.docx");
    NameReflexive("b.docx");
    assert Sort(s[1..]) == ["B.docx"];
  }

  /** One conversion: read `source`, write the PDF to `target`. */
  datatype Job = Job(source: Path, target: Path)

  /** The documents a batch converts: the `.docx` entries of the input directory, sorted. */
  function BatchNames(fs: FileSystem, d: Descriptor): seq<string>
  {
    Sort(DocxEntries(Listing(fs, d.input)))
  }

  /** The conversions a descriptor calls for, in order: one per selected entry for a batch,
      each to `output / (stem + ".pdf")`, or the single input to the resolved output.
      There are as many as the progress bar announces. */
  function Jobs(fs: FileSystem, d: Descriptor): (r: seq<Job>)
    ensures |r| == Total(fs, d)
  {
    if d.batch then
      var entries := DocxEntries(Listing(fs, d.input));
      assert |multiset(Sort(entries))| == |multiset(entries)|;
      JobsFor(d.input, d.output, BatchNames(fs, d))
    else
      [Job(d.input, d.output)]
  }

  /** One job per name, in order: the name inside `input`, written to `output` under its
      PDF name. */
  function JobsFor(input: Path, output: Path, names: seq<string>): (r: seq<Job>)
    ensures |r| == |names|
    ensures forall i :: 0 <= i < |r| ==>
              && Parent(r[i].source) == input
              && Name(r[i].source) == names[i]
              && r[i].target == output + [PdfName(names[i])]
  {
    var r := seq(|names|, i requires 0 <= i < |names| => Job(input + [names[i]], output + [PdfName(names[i])]));
    assert forall i :: 0 <= i < |r| ==> Parent(r[i].source) == input by {
      forall i | 0 <= i < |r| ensures Parent(r[i].source) == input {
        SnocParts(input, names[i]);
      }
    }
    r
  }

  /** The file names the jobs read, in order. */
  function SourceNames(js: seq<Job>): seq<string>
  {
    seq(|js|, i requires 0 <= i < |js| => Name(js[i].source))
  }

  lemma JobsForNames(input: Path, output: Path, names: seq<string>)
    ensures SourceNames(JobsFor(input, output, names)) == names
  {
  }

  /** The batch's names are the `.docx` entries, sorted. */
  lemma BatchNamesFacts(fs: FileSystem, d: Descriptor)
    ensures var names := BatchNames(fs, d);
            && Sorted(names)
            && multiset(names) == multiset(DocxEntries(Listing(fs, d.input)))
            && forall i :: 0 <= i < |names| ==> EndsWith(names[i], DocxSuffix)
  {
    var entries := DocxEntries(Listing(fs, d.input));
    var names := BatchNames(fs, d);
    forall i | 0 <= i < |names| ensures EndsWith(names[i], DocxSuffix) {
      assert names[i] in multiset(entries);
      var k :| 0 <= k < |entries| && entries[k] == names[i];
    }
  }

  /** The progress bar's total: the number of `.docx` matches for a batch, 1 otherwise.
      A batch never announces more than the directory lists. */
  function Total(fs: FileSystem, d: Descriptor): (r: nat)
    ensures d.batch ==> r <= |Listing(fs, d.input)|
    ensures !d.batch ==> r == 1
  {
    if d.batch then |DocxEntries(Listing(fs, d.input))| else 1
  }

  /** A batch visits exactly the `.docx` entries directly inside the input directory, each
      as often as listed, each written to the output directory under its stem with `.pdf`
      (the order is `BatchOrder`'s concern). */
  lemma BatchJobs(fs: FileSystem, d: Descriptor)
    requires d.batch
    ensures var js := Jobs(fs, d);
            && (forall i :: 0 <= i < |js| ==>
                  && Parent(js[i].source) == d.input
                  && EndsWith(Name(js[i].source), DocxSuffix)
                  && js[i].target == d.output + [Stem(Name(js[i].source)) + PdfSuffix])
            && multiset(SourceNames(js)) == multiset(DocxEntries(Listing(fs, d.input)))
  {
    var names := BatchNames(fs, d);
    BatchNamesFacts(fs, d);
    JobsForNames(d.input, d.output, names);
  }

  /** A batch converts in ascending order of lower-cased file name. */
  lemma BatchOrder(fs: FileSystem, d: Descriptor)
    requires d.batch
    ensures var js := Jobs(fs, d);
            forall i, j :: 0 <= i < j < |js| ==> LexLessEq(Lower(Name(js[i].source)), Lower(Name(js[j].source)))
  {
    BatchNamesFacts(fs, d);
  }

  /** The order of the directory listing does not matter when no two names are equal
      ignoring case: listings with the same entries give the same conversions. */
  lemma JobsIgnoreListingOrder(fs1: FileSystem, fs2: FileSystem, d: Descriptor)
    requires multiset(Listing(fs1, d.input)) == multiset(Listing(fs2, d.input))
    requires CaseDistinct(multiset(Listing(fs1, d.input)))
    ensures Jobs(fs1, d) == Jobs(fs2, d)
  {
    var l1 := Listing(fs1, d.input);
    var e1 := DocxEntries(l1);
    var e2 := DocxEntries(Listing(fs2, d.input));
    assert multiset(e1) == multiset(e2) by {
      forall n ensures multiset(e1)[n] == multiset(e2)[n] { }
    }
    assert CaseDistinct(multiset(e1)) by {
      forall a, b | a in multiset(e1) && b in multiset(e1) ensures a in multiset(l1) && b in multiset(l1) {
        assert multiset(e1)[a] == multiset(l1)[a];
        assert multiset(e1)[b] == multiset(l1)[b];
      }
    }
    SortedUnique(Sort(e1), Sort(e2));
  }

  /** What the Windows driver asks Word to do: convert each job, then quit Word unless the
      caller asked to keep it running. */
  datatype WordEvent = Export(source: Path, target: Path) | Quit

  function WordSession(fs: FileSystem, d: Descriptor, keepActive: bool): (r: seq<WordEvent>)
    ensures |r| == |Jobs(fs, d)| + (if keepActive then 0 else 1)
    ensures forall i :: 0 <= i < |Jobs(fs, d)| ==> r[i].Export?
  {
    var js := Jobs(fs, d);
    seq(|js|, i requires 0 <= i < |js| => Export(js[i].source, js[i].target)) + (if keepActive then [] else [Quit])
  }

  /** Word converts the jobs in order, one progress tick each, so the ticks reach the total;
      `Quit` comes last, and only when Word is not kept active. */
  lemma WordSessionConvertsJobs(fs: FileSystem, d: Descriptor, keepActive: bool)
    ensures var es := WordSession(fs, d, keepActive);
            var js := Jobs(fs, d);
            && |es| == Total(fs, d) + (if keepActive then 0 else 1)
            && (forall i :: 0 <= i < |js| ==> es[i] == Export(js[i].source, js[i].target))
            && (Quit in es <==> !keepActive)
            && (!keepActive ==> es[|es| - 1] == Quit)
  {
  }

  /** A single document is opened, saved as PDF at the resolved output, and closed; then
      Word quits unless kept active. */
  lemma SingleDocumentSession(fs: FileSystem, d: Descriptor, keepActive: bool)
    requires !d.batch
    ensures WordSession(fs, d, keepActive) ==
              if keepActive then [Export(d.input, d.output)] else [Export(d.input, d.output), Quit]
  {
    assert Jobs(fs, d) == [Job(d.input, d.output)];
  }
}

=== FILE: dispatch.dfy ===
/** `convert`: resolve the paths, then hand the descriptor to the driver for the host
    platform. */
module Dispatch {
  import opened Wrappers
  import opened Paths
  import opened Resolver
  import opened Batch
  import opened Status

  /** How a call to `convert` can fail before or instead of running a driver. */
  datatype Failure =
    | InvalidPaths(error: ResolveError)  // an assertion of `resolve_paths` failed
    | NotImplemented                     // no driver for this platform

  /** What the selected driver did. */
  datatype Run =
    | MacRun(helperArgs: seq<string>, total: nat, status: Outcome)
    | WindowsRun(events: seq<WordEvent>)

  /** The path flavour `pathlib` uses on the platform `sys.platform` names. */
  function FlavourOf(platform: string): Flavour
  {
    if platform == "win32" then Windows else Posix
  }

  /** The arguments after the script path that the macOS driver passes to its helper:
      input, output, and the keep-active flag as lower-case text. */
  function HelperArgs(d: Descriptor, keepActive: bool): (r: seq<string>)
    ensures |r| == 3
    // Both paths are passed as absolute texts.
    ensures IsAbsolute(Posix, r[0]) && IsAbsolute(Posix, r[1])
    // `str(keep_active).lower()` is `"true"` or `"false"`.
    ensures (r[2] == "true" <==> keepActive) && (r[2] == "false" <==> !keepActive)
  {
    [Str(d.input), Str(d.output), if keepActive then "true" else "false"]
  }

  /** `convert(input, output, keep_active)` on platform `platform`, with working directory
      `cwd`, filesystem `fs`, and `stderr` the lines the macOS helper script writes. */
  function Convert(platform: string, cwd: Path, fs: FileSystem, input: string, output: Option<string>,
                   keepActive: bool, stderr: seq<Line>): (r: Result<Run, Failure>)
    requires ValidPath(FlavourOf(platform), cwd)
    // Paths are resolved before the platform is looked at, so their failures come first.
    ensures ResolvePaths(FlavourOf(platform), cwd, fs, input, output).Err? ==>
              r == Err(InvalidPaths(ResolvePaths(FlavourOf(platform), cwd, fs, input, output).error))
    ensures r == Err(NotImplemented) <==>
              ResolvePaths(FlavourOf(platform), cwd, fs, input, output).Ok? && platform != "darwin" && platform != "win32"
    // Only `darwin` and `win32` reach a driver, each its own.
    ensures r.Ok? ==> (r.value.MacRun? <==> platform == "darwin") && (r.value.WindowsRun? <==> platform == "win32")
  {
    match ResolvePaths(FlavourOf(platform), cwd, fs, input, output)
    case Err(e) => Err(InvalidPaths(e))
    case Ok(d) =>
      if platform == "darwin" then
        Ok(MacRun(HelperArgs(d, keepActive), Total(fs, d), Drain(stderr)))
      else if platform == "win32" then
        Ok(WindowsRun(WordSession(fs, d, keepActive)))
      else
        Err(NotImplemented)
  }

  /** On Windows a single resolved document is exported to its resolved output, and
      Word quits afterwards unless kept active. */
  lemma WindowsSingleFile(cwd: Path, fs: FileSystem, input: string, output: Option<string>,
                          keepActive: bool, stderr: seq<Line>, source: Path, target: Path)
    requires ValidPath(Windows, cwd)
    requires ResolvePaths(Windows, cwd, fs, input, output) == Ok(Descriptor(false, source, target))
    ensures Convert("win32", cwd, fs, input, output, keepActive, stderr) ==
              Ok(WindowsRun(if keepActive then [Export(source, target)] else [Export(source, target), Quit]))
  {
    SingleDocumentSession(fs, Descriptor(false, source, target), keepActive);
  }

  /** On macOS the helper receives paths that resolve back to the descriptor's, the
      progress total is the number of documents the descriptor calls for, and the status
      loop decides the outcome. */
  lemma MacRunFacts(cwd: Path, fs: FileSystem, input: string, output: Option<string>,
                    keepActive: bool, stderr: seq<Line>)
    requires ValidPath(Posix, cwd)
    requires ResolvePaths(Posix, cwd, fs, input, output).Ok?
    ensures var d := ResolvePaths(Posix, cwd, fs, input, output).value;
            var r := Convert("darwin", cwd, fs, input, output, keepActive, stderr);
            && r.Ok? && r.value.MacRun?
            && |r.value.helperArgs| == 3
            && Resolve(Posix, cwd, r.value.helperArgs[0]) == d.input
            && Resolve(Posix, cwd, r.value.helperArgs[1]) == d.output
            && r.value.total == |Jobs(fs, d)|
            && r.value.status == Expected(stderr)
  {
    var d := ResolvePaths(Posix, cwd, fs, input, output).value;
    ResolveStr(Posix, cwd, d.input);
    ResolveStr(Posix, cwd, d.output);
  }
}

=== FILE: paths.dfy ===
/** Filesystem paths as `pathlib` sees them once resolved: an absolute path is the list
    of its components below the root, and resolution is lexical (no symbolic links). */
module Paths {
  import opened Text

  /** `pathlib.Path` is a `PosixPath` on macOS and Linux and a `WindowsPath` on Windows. */
  datatype Flavour = Posix | Windows

  /** The characters that separate components: Windows accepts both slashes. */
  function Seps(f: Flavour): set<char>
  {
    if f == Windows then {'/', '\\'} else {'/'}
  }

  /** An absolute path: its components below the root, outermost first. */
  type Path = seq<string>

  /** A component that normalisation keeps: non-empty, not `.` or `..`, no separator. */
  predicate ValidComponent(f: Flavour, c: string)
  {
    c != "" && c != "." && c != ".." && NoneIn(c, Seps(f))
  }

  /** A normalised absolute path. */
  predicate ValidPath(f: Flavour, p: Path)
  {
    forall i :: 0 <= i < |p| ==> ValidComponent(f, p[i])
  }

  /** `PurePath.name`: the final component, empty for the root. */
  function Name(p: Path): string
  {
    if p == [] then "" else p[|p| - 1]
  }

  /** `PurePath.parent`: the root is its own parent. */
  function Parent(p: Path): (r: Path)
    ensures p != [] ==> p == r + [Name(p)]
  {
    if p == [] then [] else p[..|p| - 1]
  }

  lemma SnocParts(p: Path, c: string)
    ensures Parent(p + [c]) == p && Name(p + [c]) == c
  {
    assert (p + [c])[..|p|] == p;
  }

  /** `PurePath.stem`: the name without its final suffix. A leading dot (`.docx`) or a
      trailing dot (`a.`) does not start a suffix, so such names are their own stem. */
  function Stem(name: string): (r: string)
    ensures StartsWith(name, r)
    ensures r != name ==> 0 < |r| < |name| - 1 && name[|r|] == '.' && '.' !in name[|r| + 1..]
    // A suffix is removed exactly when the name has a dot after its first character and
    // does not end in a dot.
    ensures r != name <==>
              |name| > 0 && name[|name| - 1] != '.' && exists i :: 0 < i < |name| - 1 && name[i] == '.'
  {
    var i := RFind(name, '.');
    if 0 < i < |name| - 1 then name[..i] else name
  }

  /** The stem of a name without separators has none either. */
  lemma StemKeepsSeparatorsOut(f: Flavour, name: string)
    requires NoneIn(name, Seps(f))
    ensures NoneIn(Stem(name), Seps(f))
  {
    var stem := Stem(name);
    forall i | 0 <= i < |stem| ensures stem[i] !in Seps(f) {
      assert stem[i] == name[i];
    }
  }

  /** A text without separators followed by a suffix of three or more characters without
      separators is a component normalisation keeps. */
  lemma SuffixedComponent(f: Flavour, stem: string, suffix: string)
    requires NoneIn(stem, Seps(f)) && NoneIn(suffix, Seps(f)) && |suffix| >= 3
    ensures ValidComponent(f, stem + suffix)
  {
    var c := stem + suffix;
    forall i | 0 <= i < |c| ensures c[i] !in Seps(f) {
      if i < |stem| {
        assert c[i] == stem[i];
      } else {
        assert c[i] == suffix[i - |stem|];
      }
    }
    assert |c| >= 3;
  }

  /** The components of `p` joined with `/` (the empty path joins to the empty string). */
  function Join(p: Path): string
  {
    if p == [] then ""
    else if |p| == 1 then p[0]
    else Join(p[..|p| - 1]) + "/" + p[|p| - 1]
  }

  /** `str(path)`: the rendering of an absolute path, `/` for the root. */
  function Str(p: Path): (r: string)
    ensures |r| > 0 && r[0] == '/'
  {
    "/" + Join(p)
  }

  /** The texts between separators of `s`, in order; there is always at least one. */
  function Split(s: string, seps: set<char>): (r: seq<string>)
    ensures |r| >= 1
    ensures forall i :: 0 <= i < |r| ==> NoneIn(r[i], seps)
  {
    var k := LastIndexIn(s, seps);
    if k < 0 then [s]
    else
      var init := Split(s[..k], seps);
      var last := s[k + 1..];
      assert NoneIn(last, seps) by {
        forall i | 0 <= i < |last| ensures last[i] !in seps {
          assert last[i] == s[k + 1 + i];
        }
      }
      init + [last]
  }

  /** Whether `s` names an absolute path: it starts at a root, or (on Windows) at a drive. */
  predicate IsAbsolute(f: Flavour, s: string)
  {
    (|s| > 0 && s[0] in Seps(f)) || (f == Windows && |s| >= 2 && s[1] == ':')
  }

  /** One step of lexical normalisation: empty and `.` texts vanish, `..` goes up. */
  function Descend(p: Path, segment: string): Path
  {
    if segment == "" || segment == "." then p
    else if segment == ".." then Parent(p)
    else p + [segment]
  }

  /** Walks from `base` through `segments`, first to last. */
  function Normalise(base: Path, segments: seq<string>): Path
  {
    if segments == [] then base
    else Descend(Normalise(base, segments[..|segments| - 1]), segments[|segments| - 1])
  }

  /** `Path(s).resolve()` with working directory `cwd`, without symbolic links. */
  function Resolve(f: Flavour, cwd: Path, s: string): (r: Path)
    requires ValidPath(f, cwd)
    ensures ValidPath(f, r)
  {
    var segments := Split(s, Seps(f));
    NormaliseKeepsValid(f, if IsAbsolute(f, s) then [] else cwd, segments);
    Normalise(if IsAbsolute(f, s) then [] else cwd, segments)
  }

  lemma {:induction false} NormaliseKeepsValid(f: Flavour, base: Path, segments: seq<string>)
    requires ValidPath(f, base)
    requires forall i :: 0 <= i < |segments| ==> NoneIn(segments[i], Seps(f))
    ensures ValidPath(f, Normalise(base, segments))
    decreases |segments|
  {
    if segments != [] {
      NormaliseKeepsValid(f, base, segments[..|segments| - 1]);
    }
  }

  lemma NormaliseSnoc(base: Path, segments: seq<string>, last: string)
    ensures Normalise(base, segments + [last]) == Descend(Normalise(base, segments), last)
  {
    assert (segments + [last])[..|segments|] == segments;
  }

  /** Splitting at a separator followed by separator-free text peels that text off the end. */
  lemma SplitAtLastSeparator(a: string, c: char, b: string, seps: set<char>)
    requires c in seps && NoneIn(b, seps)
    ensures Split(a + [c] + b, seps) == Split(a, seps) + [b]
  {
    var s := a + [c] + b;
    var k := LastIndexIn(s, seps);
    assert s[|a|] == c;
    assert k == |a|;
    assert s[..k] == a && s[k + 1..] == b;
  }

  /** The rendering of a normalised path splits into an empty root text and its components. */
  lemma {:induction false} SplitStr(f: Flavour, p: Path)
    requires ValidPath(f, p) && p != []
    ensures Split(Str(p), Seps(f)) == [""] + p
    decreases |p|
  {
    if |p| == 1 {
      SplitStrSingle(f, p);
    } else {
      var init := p[..|p| - 1];
      SplitStrSnoc(f, p);
      SplitStr(f, init);
      SnocAgain([""], p);
    }
  }

  lemma SnocAgain<T>(x: seq<T>, p: seq<T>)
    requires p != []
    ensures x + p[..|p| - 1] + [p[|p| - 1]] == x + p
  {
    assert p == p[..|p| - 1] + [p[|p| - 1]];
  }

  lemma SplitStrSingle(f: Flavour, p: Path)
    requires ValidPath(f, p) && |p| == 1
    ensures Split(Str(p), Seps(f)) == [""] + p
  {
    var last := p[0];
    assert ValidComponent(f, last);
    assert Str(p) == "" + ['/'] + last;
    SplitAtLastSeparator("", '/', last, Seps(f));
    assert Split("", Seps(f)) == [""];
  }

  lemma SplitStrSnoc(f: Flavour, p: Path)
    requires ValidPath(f, p) && |p| >= 2
    ensures ValidPath(f, p[..|p| - 1])
    ensures Split(Str(p), Seps(f)) == Split(Str(p[..|p| - 1]), Seps(f)) + [p[|p| - 1]]
  {
    var init := p[..|p| - 1];
    assert ValidComponent(f, p[|p| - 1]);
    StrSnoc(p);
    SplitAtLastSeparator(Str(init), '/', p[|p| - 1], Seps(f));
  }

  lemma StrSnoc(p: Path)
    requires |p| >= 2
    ensures Str(p) == Str(p[..|p| - 1]) + ['/'] + p[|p| - 1]
  {
  }

  lemma {:induction false} NormaliseComponents(f: Flavour, p: Path)
    requires ValidPath(f, p)
    ensures Normalise([], [""] + p) == p
    decreases |p|
  {
    if p == [] {
      assert Normalise([], [""]) == Descend(Normalise([], []), "");
    } else {
      var init := p[..|p| - 1];
      assert [""] + p == ([""] + init) + [p[|p| - 1]];
      NormaliseSnoc([], [""] + init, p[|p| - 1]);
      NormaliseComponents(f, init);
    }
  }

  /** Resolving the rendering of a normalised absolute path gives that path back, whatever
      the working directory: `Path.resolve` is the identity on such paths. */
  lemma ResolveStr(f: Flavour, cwd: Path, p: Path)
    requires ValidPath(f, cwd) && ValidPath(f, p)
    ensures Resolve(f, cwd, Str(p)) == p
  {
    assert IsAbsolute(f, Str(p));
    if p == [] {
      assert Str(p) == "" + ['/'] + "";
      SplitAtLastSeparator("", '/', "", Seps(f));
      assert Split("", Seps(f)) == [""];
      NormaliseComponents(f, p);
      NormaliseSnoc([], [""], "");
    } else {
      SplitStr(f, p);
      NormaliseComponents(f, p);
    }
  }

  /** The rendering of a path ends with a separator-free suffix exactly when its final
      component does, so `str(path).endswith(".docx")` is a test of the name alone. */
  lemma StrEndsWith(p: Path, suffix: string)
    requires suffix != [] && '/' !in suffix
    ensures EndsWith(Str(p), suffix) <==> EndsWith(Name(p), suffix)
  {
    if p == [] {
      assert Str(p) == "/";
    } else {
      var a := if |p| == 1 then "" else Str(p[..|p| - 1]);
      assert Str(p) == a + ['/'] + Name(p);
      EndsWithAfterSeparator(a, '/', Name(p), suffix);
    }
  }

  /** A text whose tail `t` has no separator resolves to a path whose name ends with `t`:
      the final component is `t` together with whatever precedes it back to a separator. */
  lemma ResolveTail(f: Flavour, cwd: Path, a: string, t: string)
    requires ValidPath(f, cwd)
    requires NoneIn(t, Seps(f)) && |t| >= 3
    ensures EndsWith(Name(Resolve(f, cwd, a + t)), t)
  {
    var s := a + t;
    TailAfterLastMatch(a, t, Seps(f));
    var last := s[LastIndexIn(s, Seps(f)) + 1..];
    assert |last| >= 3;
    ResolveLast(f, cwd, s);
  }

  /** The text after the last separator, when it is a valid component, is the name of the
      path the text resolves to. */
  lemma ResolveLast(f: Flavour, cwd: Path, s: string)
    requires ValidPath(f, cwd)
    requires ValidComponent(f, s[LastIndexIn(s, Seps(f)) + 1..])
    ensures Name(Resolve(f, cwd, s)) == s[LastIndexIn(s, Seps(f)) + 1..]
  {
    var k := LastIndexIn(s, Seps(f));
    if k < 0 {
      assert s[k + 1..] == s;
      ResolveComponent(f, cwd, s);
    } else {
      var last := s[k + 1..];
      assert s == s[..k] + [s[k]] + last;
      ResolveName(f, cwd, s[..k], s[k], last);
    }
  }

  /** A valid component on its own resolves to a path with that name. */
  lemma ResolveComponent(f: Flavour, cwd: Path, c: string)
    requires ValidPath(f, cwd) && ValidComponent(f, c)
    ensures Name(Resolve(f, cwd, c)) == c
  {
    var base := if IsAbsolute(f, c) then [] else cwd;
    assert LastIndexIn(c, Seps(f)) == -1;
    assert Split(c, Seps(f)) == [c];
    assert Normalise(base, [c]) == Descend(Normalise(base, []), c);
  }

  /** When a string ends in a separator followed by a valid component, that component is
      the name of the path it resolves to. */
  lemma ResolveName(f: Flavour, cwd: Path, a: string, c: char, last: string)
    requires ValidPath(f, cwd)
    requires c in Seps(f) && ValidComponent(f, last)
    ensures Name(Resolve(f, cwd, a + [c] + last)) == last
  {
    var s := a + [c] + last;
    SplitAtLastSeparator(a, c, last, Seps(f));
    NormaliseSnoc(if IsAbsolute(f, s) then [] else cwd, Split(a, Seps(f)), last);
  }
}

=== FILE: resolver.dfy ===
/** Path resolution (`resolve_paths`): turns the user's input and optional output into the
    descriptor the platform drivers consume, or rejects the combination. */
module Resolver {
  import opened Wrappers
  import opened Text
  import opened Paths

  /** What resolution and batch listing can observe of the filesystem: which paths are
      directories, and the names each directory lists (in the operating system's order). */
  datatype FileSystem = FileSystem(dirs: set<Path>, listing: map<Path, seq<string>>)

  /** The operation descriptor: whether to convert a whole directory, what to read and
      where to write. */
  datatype Descriptor = Descriptor(batch: bool, input: Path, output: Path)

  /** The three assertions of `resolve_paths` that can fail. */
  datatype ResolveError =
    | OutputNotDirectory  // a batch input with an output that is not a directory
    | InputNotDocx        // a single input whose path does not end with `.docx`
    | OutputNotPdf        // an explicit single-file output that does not end with `.pdf`

  const DocxSuffix: string := ".docx"
  const PdfSuffix: string := ".pdf"

  /** The file name a document is converted to: its stem with `.pdf` appended. */
  function PdfName(name: string): (r: string)
    ensures EndsWith(r, PdfSuffix)
    // Only the final suffix changes: the derived name has the same stem.
    ensures name != "" ==> Stem(r) == Stem(name)
  {
    var stem := Stem(name);
    var r := stem + PdfSuffix;
    assert r[|r| - |PdfSuffix|..] == PdfSuffix;
    assert name != "" ==> Stem(r) == stem by {
      if name != "" {
        assert |stem| > 0;
        assert r[|stem|] == '.';
        assert RFind(r, '.') == |stem| by {
          assert forall j :: |stem| < j < |r| ==> r[j] == PdfSuffix[j - |stem|];
        }
        assert r[..|stem|] == stem;
      }
    }
    r
  }

  /** The resolved output argument: `None` and the empty string both mean "omitted". */
  function OutputPath(f: Flavour, cwd: Path, output: Option<string>): (r: Option<Path>)
    requires ValidPath(f, cwd)
    ensures r.Some? ==> ValidPath(f, r.value)
    ensures r.None? <==> output == None || output == Some("")
  {
    if output.Some? && output.value != "" then Some(Resolve(f, cwd, output.value)) else None
  }

  /** The facts every successful resolution establishes about its descriptor. */
  predicate WellFormed(fs: FileSystem, d: Descriptor)
  {
    if d.batch then
      d.input in fs.dirs && d.output in fs.dirs
    else
      d.input !in fs.dirs && EndsWith(Str(d.input), DocxSuffix) && EndsWith(Str(d.output), PdfSuffix)
  }

  /** `resolve_paths`: the input is resolved, and so is the output unless it is omitted or
      empty; the resolved pair is then classified. */
  function ResolvePaths(f: Flavour, cwd: Path, fs: FileSystem, input: string, output: Option<string>)
    : (r: Result<Descriptor, ResolveError>)
    requires ValidPath(f, cwd)
    ensures r.Ok? ==> WellFormed(fs, r.value)
    ensures r.Ok? ==> ValidPath(f, r.value.input) && ValidPath(f, r.value.output)
    ensures r.Ok? ==> r.value.input == Resolve(f, cwd, input)
    ensures r.Ok? && r.value.batch && OutputPath(f, cwd, output).None? ==> r.value.output == r.value.input
  {
    Classify(f, fs, Resolve(f, cwd, input), OutputPath(f, cwd, output))
  }

  /** The decisions `resolve_paths` takes on the resolved input and output: a directory
      input is a batch (into the output directory, or into itself); otherwise the input
      must end in `.docx`, and the output is the derived name inside an output directory,
      an explicit file that must end in `.pdf`, or the derived name beside the input. */
  function Classify(f: Flavour, fs: FileSystem, inp: Path, out: Option<Path>)
    : (r: Result<Descriptor, ResolveError>)
    requires ValidPath(f, inp) && (out.Some? ==> ValidPath(f, out.value))
    ensures r.Ok? ==> WellFormed(fs, r.value)
    ensures r.Ok? ==> ValidPath(f, r.value.input) && ValidPath(f, r.value.output)
    ensures r.Ok? ==> r.value.input == inp
    ensures r.Ok? && r.value.batch && out.None? ==> r.value.output == inp
  {
    if inp in fs.dirs then
      if out.Some? then
        if out.value in fs.dirs then Ok(Descriptor(true, inp, out.value)) else Err(OutputNotDirectory)
      else
        Ok(Descriptor(true, inp, inp))
    else if !EndsWith(Str(inp), DocxSuffix) then
      Err(InputNotDocx)
    else
      PdfNameIsComponent(f, inp);
      if out.Some? && out.value in fs.dirs then
        PdfTarget(f, out.value, Name(inp));
        Ok(Descriptor(false, inp, out.value + [PdfName(Name(inp))]))
      else if out.Some? then
        if EndsWith(Str(out.value), PdfSuffix) then Ok(Descriptor(false, inp, out.value)) else Err(OutputNotPdf)
      else
        PdfTarget(f, Parent(inp), Name(inp));
        Ok(Descriptor(false, inp, Parent(inp) + [PdfName(Name(inp))]))
  }

  /** The name derived for the converted document is itself a valid component. */
  lemma PdfNameIsComponent(f: Flavour, p: Path)
    requires ValidPath(f, p) && EndsWith(Str(p), DocxSuffix)
    ensures ValidComponent(f, PdfName(Name(p)))
  {
    StrEndsWith(p, DocxSuffix);
    var name := Name(p);
    assert p != [] && ValidComponent(f, p[|p| - 1]);
    StemKeepsSeparatorsOut(f, name);
    assert NoneIn(PdfSuffix, Seps(f));
    SuffixedComponent(f, Stem(name), PdfSuffix);
  }

  /** A derived destination is a valid path whose rendering ends with `.pdf`. */
  lemma PdfTarget(f: Flavour, dir: Path, name: string)
    requires ValidPath(f, dir) && ValidComponent(f, PdfName(name))
    ensures ValidPath(f, dir + [PdfName(name)])
    ensures EndsWith(Str(dir + [PdfName(name)]), PdfSuffix)
  {
    StrEndsWith(dir + [PdfName(name)], PdfSuffix);
  }

  /** An output of `None` and an empty output string resolve identically. */
  lemma EmptyOutputIsOmitted(f: Flavour, cwd: Path, fs: FileSystem, input: string)
    requires ValidPath(f, cwd)
    ensures ResolvePaths(f, cwd, fs, input, Some("")) == ResolvePaths(f, cwd, fs, input, None)
  {
  }

  /** A directory input always gives a batch descriptor for that directory; it fails
      exactly when an output is given that is not a directory, and otherwise writes to
      the given directory or, by default, into the input directory itself. */
  lemma DirectoryInput(f: Flavour, cwd: Path, fs: FileSystem, input: string, output: Option<string>)
    requires ValidPath(f, cwd)
    requires Resolve(f, cwd, input) in fs.dirs
    ensures var r := ResolvePaths(f, cwd, fs, input, output);
            var out := OutputPath(f, cwd, output);
            && (r.Err? <==> out.Some? && out.value !in fs.dirs)
            && (r.Err? ==> r.error == OutputNotDirectory)
            && (r.Ok? ==> r.value.batch && r.value.input == Resolve(f, cwd, input))
            && (r.Ok? ==> r.value.output == if out.Some? then out.value else r.value.input)
  {
  }

  /** When resolution fails, and why: exactly one of the three assertions, each under the
      condition that triggers it. The suffix tests look only at the final component. */
  lemma ResolveFailures(f: Flavour, cwd: Path, fs: FileSystem, input: string, output: Option<string>)
    requires ValidPath(f, cwd)
    ensures var r := ResolvePaths(f, cwd, fs, input, output);
            var inp := Resolve(f, cwd, input);
            var out := OutputPath(f, cwd, output);
            && (r == Err(OutputNotDirectory) <==> inp in fs.dirs && out.Some? && out.value !in fs.dirs)
            && (r == Err(InputNotDocx) <==> inp !in fs.dirs && !EndsWith(Name(inp), DocxSuffix))
            && (r == Err(OutputNotPdf) <==>
                  && inp !in fs.dirs && EndsWith(Name(inp), DocxSuffix)
                  && out.Some? && out.value !in fs.dirs && !EndsWith(Name(out.value), PdfSuffix))
  {
    var inp := Resolve(f, cwd, input);
    var out := OutputPath(f, cwd, output);
    StrEndsWith(inp, DocxSuffix);
    if out.Some? {
      StrEndsWith(out.value, PdfSuffix);
    }
  }

  /** A single-file input is never batch, and its destination is: the derived name inside
      an output directory; the explicit output unchanged; or, with no output, a sibling of
      the input with the same stem whose final suffix is `.pdf`. */
  lemma SingleFileDestination(f: Flavour, cwd: Path, fs: FileSystem, input: string, output: Option<string>)
    requires ValidPath(f, cwd)
    requires Resolve(f, cwd, input) !in fs.dirs
    ensures var r := ResolvePaths(f, cwd, fs, input, output);
            var inp := Resolve(f, cwd, input);
            var out := OutputPath(f, cwd, output);
            && (r.Ok? ==> !r.value.batch)
            && (r.Ok? && out.Some? && out.value in fs.dirs ==>
                  r.value.output == out.value + [Stem(Name(inp)) + PdfSuffix])
            && (r.Ok? && out.Some? && out.value !in fs.dirs ==> r.value.output == out.value)
            && (r.Ok? && out.None? ==>
                  && Parent(r.value.output) == Parent(inp)
                  && Stem(Name(r.value.output)) == Stem(Name(inp))
                  && Name(r.value.output) == Stem(Name(inp)) + PdfSuffix)
  {
    SingleFileNotBatch(f, cwd, fs, input, output);
    if OutputPath(f, cwd, output).None? {
      SingleFileDefault(f, cwd, fs, input, output);
    }
  }

  lemma SingleFileNotBatch(f: Flavour, cwd: Path, fs: FileSystem, input: string, output: Option<string>)
    requires ValidPath(f, cwd)
    requires Resolve(f, cwd, input) !in fs.dirs
    ensures var r := ResolvePaths(f, cwd, fs, input, output);
            var inp := Resolve(f, cwd, input);
            var out := OutputPath(f, cwd, output);
            && (r.Ok? ==> !r.value.batch)
            && (r.Ok? && out.Some? && out.value in fs.dirs ==>
                  r.value.output == out.value + [Stem(Name(inp)) + PdfSuffix])
            && (r.Ok? && out.Some? && out.value !in fs.dirs ==> r.value.output == out.value)
  {
  }

  lemma SingleFileDefault(f: Flavour, cwd: Path, fs: FileSystem, input: string, output: Option<string>)
    requires ValidPath(f, cwd)
    requires Resolve(f, cwd, input) !in fs.dirs
    requires OutputPath(f, cwd, output).None?
    ensures var r := ResolvePaths(f, cwd, fs, input, output);
            var inp := Resolve(f, cwd, input);
            r.Ok? ==>
              && Parent(r.value.output) == Parent(inp)
              && Stem(Name(r.value.output)) == Stem(Name(inp))
              && Name(r.value.output) == Stem(Name(inp)) + PdfSuffix
  {
    ClassifyDefault(f, fs, Resolve(f, cwd, input));
  }

  lemma ClassifyDefault(f: Flavour, fs: FileSystem, inp: Path)
    requires ValidPath(f, inp) && inp !in fs.dirs
    ensures var r := Classify(f, fs, inp, None);
            r.Ok? ==>
              && Parent(r.value.output) == Parent(inp)
              && Stem(Name(r.value.output)) == Stem(Name(inp))
              && Name(r.value.output) == Stem(Name(inp)) + PdfSuffix
  {
    var r := Classify(f, fs, inp, None);
    ClassifyDefaultOutput(f, fs, inp);
    if r.Ok? {
      SiblingPdf(inp, r.value.output);
    }
  }

  /** With no output, a successful file input writes beside itself. */
  lemma ClassifyDefaultOutput(f: Flavour, fs: FileSystem, inp: Path)
    requires ValidPath(f, inp) && inp !in fs.dirs
    ensures var r := Classify(f, fs, inp, None);
            r.Ok? ==> EndsWith(Str(inp), DocxSuffix) && r.value.output == Parent(inp) + [PdfName(Name(inp))]
  {
  }

  /** The PDF beside a named path shares its folder and its stem. */
  lemma SiblingPdf(inp: Path, out: Path)
    requires EndsWith(Str(inp), DocxSuffix) && out == Parent(inp) + [PdfName(Name(inp))]
    ensures Parent(out) == Parent(inp)
    ensures Stem(Name(out)) == Stem(Name(inp))
    ensures Name(out) == Stem(Name(inp)) + PdfSuffix
  {
    StrEndsWith(inp, DocxSuffix);
    SnocParts(Parent(inp), PdfName(Name(inp)));
  }

  /** A document input with an explicit output that is not a directory and whose name
      ends in `.pdf` resolves to exactly those two paths. */
  lemma ExplicitPdfOutput(f: Flavour, cwd: Path, fs: FileSystem, input: string, output: string)
    requires ValidPath(f, cwd)
    requires Resolve(f, cwd, input) !in fs.dirs && EndsWith(Name(Resolve(f, cwd, input)), DocxSuffix)
    requires output != "" && Resolve(f, cwd, output) !in fs.dirs
    requires EndsWith(Name(Resolve(f, cwd, output)), PdfSuffix)
    ensures ResolvePaths(f, cwd, fs, input, Some(output)) ==
              Ok(Descriptor(false, Resolve(f, cwd, input), Resolve(f, cwd, output)))
  {
    var inp := Resolve(f, cwd, input);
    var out := Resolve(f, cwd, output);
    assert OutputPath(f, cwd, Some(output)) == Some(out);
    StrEndsWith(inp, DocxSuffix);
    StrEndsWith(out, PdfSuffix);
    assert !(out in fs.dirs) && EndsWith(Str(out), PdfSuffix);
  }

  /** A document named just `.docx` has no suffix to replace: its stem is the whole name,
      so it converts to `.docx.pdf`. */
  lemma DotDocxKeepsItsName(dir: Path)
    ensures PdfName(Name(dir + [".docx"])) == ".docx.pdf"
  {
    assert RFind(".docx", '.') == 0;
  }
}

=== FILE: status.dfy ===
/** The macOS driver's status loop: it reads the helper script's standard-error lines one
    at a time, counts successes on the progress bar, and stops at the first blank line or
    at the first error. */
module Status {

  /** One standard-error line, as the loop classifies it. */
  datatype Line =
    | Blank                   // empty once trailing whitespace is stripped: reading stops
    | NonJson                 // `json.loads` raises `ValueError`: the line is skipped
    | Success                 // an object whose "result" is "success": one progress tick
    | Error(details: string)  // an object whose "result" is "error": printed, then exit 1
    | Other                   // an object whose "result" is anything else: ignored
    | Malformed               // JSON without a usable "result" entry: the lookup raises

  /** How the loop ends: the stream ran out or went blank, an error line stopped the
      program, or an exception escaped. Each carries the progress ticks made before. */
  datatype Outcome =
    | Done(count: nat)
    | Aborted(count: nat, details: string)
    | Raised(count: nat)

  /** The loop's state after one line: keep reading with a tick count, or stop. */
  datatype Next = Continue(count: nat) | Halt(outcome: Outcome)

  /** One iteration of the loop body on one line. */
  function Step(count: nat, line: Line): (r: Next)
    // The loop stops exactly on the lines that end it.
    ensures r.Halt? <==> Halts(line)
    // Otherwise only a success line adds a tick.
    ensures r.Continue? ==> r.count == count + (if line == Success then 1 else 0)
    // A stop keeps the ticks made so far.
    ensures r.Halt? ==> r.outcome.count == count
  {
    match line
    case Blank => Halt(Done(count))
    case NonJson => Continue(count)
    case Success => Continue(count + 1)
    case Error(details) => Halt(Aborted(count, details))
    case Other => Continue(count)
    case Malformed => Halt(Raised(count))
  }

  /** Runs the loop over `lines` starting from `count` ticks; the end of the stream ends
      the loop like a blank line. */
  function Consume(lines: seq<Line>, count: nat): (r: Outcome)
    // Each line adds at most one tick.
    ensures count <= r.count <= count + |lines|
    decreases |lines|
  {
    if lines == [] then Done(count)
    else
      match Step(count, lines[0])
      case Continue(c) => Consume(lines[1..], c)
      case Halt(o) => o
  }

  /** The loop as the driver runs it, from zero ticks. */
  function Drain(lines: seq<Line>): (r: Outcome)
    ensures r == Expected(lines)
  {
    ConsumeIsExpected(lines, 0);
    Consume(lines, 0)
  }

  /** The lines that end the loop. */
  predicate Halts(line: Line)
  {
    line.Blank? || line.Error? || line.Malformed?
  }

  /** The position of the first line that ends the loop, or `|lines|` if none does. */
  function HaltIndex(lines: seq<Line>): (k: nat)
    ensures k <= |lines|
    ensures k < |lines| ==> Halts(lines[k])
    ensures forall j :: 0 <= j < k ==> !Halts(lines[j])
  {
    if lines == [] then 0
    else if Halts(lines[0]) then 0
    else 1 + HaltIndex(lines[1..])
  }

  /** The number of success lines in `s`. */
  function Successes(s: seq<Line>): nat
  {
    if s == [] then 0 else (if s[0] == Success then 1 else 0) + Successes(s[1..])
  }

  /** What the loop should produce, stated without running it: find the first line that
      ends it, count the successes before that line, and let that line decide. */
  function Expected(lines: seq<Line>): Outcome
  {
    var k := HaltIndex(lines);
    var n := Successes(lines[..k]);
    if k == |lines| then Done(n)
    else match lines[k]
      case Error(details) => Aborted(n, details)
      case Malformed => Raised(n)
      case _ => Done(n)
  }

  /** `o` with `c` more ticks. */
  function AddTicks(o: Outcome, c: nat): Outcome
  {
    match o
    case Done(n) => Done(n + c)
    case Aborted(n, details) => Aborted(n + c, details)
    case Raised(n) => Raised(n + c)
  }

  /** The loop agrees with the reference description, from any starting tick count. */
  lemma {:induction false} ConsumeIsExpected(lines: seq<Line>, count: nat)
    ensures Consume(lines, count) == AddTicks(Expected(lines), count)
    decreases |lines|
  {
    if lines != [] && !Halts(lines[0]) {
      var tail := lines[1..];
      var k := HaltIndex(tail);
      assert lines[..k + 1] == [lines[0]] + tail[..k];
      assert lines[..k + 1][1..] == tail[..k];
      assert Successes(lines[..k + 1]) == (if lines[0] == Success then 1 else 0) + Successes(tail[..k]);
      ConsumeIsExpected(tail, count + (if lines[0] == Success then 1 else 0));
    }
  }

  /** Whatever follows the first blank line is never read. */
  lemma {:induction false} StopsAtFirstBlank(before: seq<Line>, after: seq<Line>, count: nat)
    ensures Consume(before + [Blank] + after, count) == Consume(before, count)
    decreases |before|
  {
    if before == [] {
      assert (before + [Blank] + after)[0] == Blank;
    } else {
      assert (before + [Blank] + after)[0] == before[0];
      assert (before + [Blank] + after)[1..] == before[1..] + [Blank] + after;
      var next := Step(count, before[0]);
      if next.Continue? {
        StopsAtFirstBlank(before[1..], after, next.count);
      }
    }
  }

  /** Lines that are not JSON, and results other than success and error, change nothing:
      removing such a line leaves the outcome as it was. */
  lemma {:induction false} SkipsIgnoredLines(before: seq<Line>, line: Line, after: seq<Line>, count: nat)
    requires line == NonJson || line == Other
    ensures Consume(before + [line] + after, count) == Consume(before + after, count)
    decreases |before|
  {
    if before == [] {
      assert (before + [line] + after)[0] == line;
      assert (before + [line] + after)[1..] == after;
      assert before + after == after;
    } else {
      assert (before + [line] + after)[0] == (before + after)[0] == before[0];
      assert (before + [line] + after)[1..] == before[1..] + [line] + after;
      assert (before + after)[1..] == before[1..] + after;
      var next := Step(count, before[0]);
      if next.Continue? {
        SkipsIgnoredLines(before[1..], line, after, next.count);
      }
    }
  }

  /** Without blank, error or malformed lines the loop reads to the end, and its count is
      the number of success lines. */
  lemma {:induction false} CountsSuccesses(lines: seq<Line>, count: nat)
    requires forall i :: 0 <= i < |lines| ==> !Halts(lines[i])
    ensures Consume(lines, count) == Done(count + Successes(lines))
    decreases |lines|
  {
    if lines != [] {
      CountsSuccesses(lines[1..], count + (if lines[0] == Success then 1 else 0));
    }
  }

  /** The first error line aborts with its details, the count being the successes before
      it; nothing after it is read. */
  lemma {:induction false} FirstErrorAborts(before: seq<Line>, details: string, after: seq<Line>, count: nat)
    requires forall i :: 0 <= i < |before| ==> !Halts(before[i])
    ensures Consume(before + [Error(details)] + after, count) == Aborted(count + Successes(before), details)
    decreases |before|
  {
    if before == [] {
      assert (before + [Error(details)] + after)[0] == Error(details);
    } else {
      assert (before + [Error(details)] + after)[1..] == before[1..] + [Error(details)] + after;
      FirstErrorAborts(before[1..], details, after, count + (if before[0] == Success then 1 else 0));
    }
  }

  /** One success and then an error: the call aborts after exactly one tick. */
  lemma SuccessThenError(details: string)
    ensures Drain([Success, Error(details)]) == Aborted(1, details)
  {
    FirstErrorAborts([Success], details, [], 0);
    assert [Success] + [Error(details)] + [] == [Success, Error(details)];
  }
}

=== FILE: text.dfy ===
/** String utilities used by the path model: prefix and suffix tests, character
    searches, and the code-point lexicographic order Python uses to compare strings. */
module Text {

  predicate StartsWith(s: string, prefix: string)
  {
    |prefix| <= |s| && s[..|prefix|] == prefix
  }

  /** Python's `str.endswith`: case-sensitive, character by character. */
  predicate EndsWith(s: string, suffix: string)
  {
    |suffix| <= |s| && s[|s| - |suffix|..] == suffix
  }

  /** True when no character of `s` is in `cs`. */
  predicate NoneIn(s: string, cs: set<char>)
  {
    forall i :: 0 <= i < |s| ==> s[i] !in cs
  }

  /** Index of the last character of `s` that belongs to `cs`, or -1 when there is none. */
  function LastIndexIn(s: string, cs: set<char>): (r: int)
    ensures -1 <= r < |s|
    ensures r >= 0 ==> s[r] in cs
    ensures forall j :: r < j < |s| ==> s[j] !in cs
  {
    if |s| == 0 then -1
    else if s[|s| - 1] in cs then |s| - 1
    else LastIndexIn(s[..|s| - 1], cs)
  }

  /** Index of the first character of `s` at or after `from` that belongs to `cs`, or -1. */
  function FirstIndexInFrom(s: string, cs: set<char>, from: nat): (r: int)
    requires from <= |s|
    ensures r == -1 || from <= r < |s|
    ensures r >= 0 ==> s[r] in cs
    ensures forall j :: from <= j < |s| && (r == -1 || j < r) ==> s[j] !in cs
    decreases |s| - from
  {
    if from == |s| then -1
    else if s[from] in cs then from
    else FirstIndexInFrom(s, cs, from + 1)
  }

  /** The last index in `cs` is the one with a match and no match after it. */
  lemma LastIndexAt(s: string, cs: set<char>, k: nat)
    requires k < |s| && s[k] in cs
    requires forall j :: k < j < |s| ==> s[j] !in cs
    ensures LastIndexIn(s, cs) == k
  {
  }

  /** The first index of `c` is the one holding `c` with none before it. */
  lemma FirstIndexOfAt(s: string, c: char, k: nat)
    requires k <= |s| && (k < |s| ==> s[k] == c)
    requires forall j :: 0 <= j < k ==> s[j] != c
    ensures FirstIndexOf(s, c) == k
  {
  }

  /** When `c` does not occur before `n`, its first occurrence is found by searching from `n`. */
  lemma FirstIndexOfAfter(s: string, c: char, n: nat)
    requires n <= |s| && c !in s[..n]
    ensures FirstIndexOf(s, c) == n + FirstIndexOf(s[n..], c)
  {
    var k := FirstIndexOf(s[n..], c);
    forall j | 0 <= j < n + k ensures s[j] != c {
      if j < n {
        assert s[j] == s[..n][j];
      } else {
        assert s[j] == s[n..][j - n];
      }
    }
    if n + k < |s| {
      assert s[n + k] == s[n..][k];
    }
    FirstIndexOfAt(s, c, n + k);
  }

  /** Nothing between `from` and the first match found from there (or the end) matches. */
  lemma NoneBeforeFirst(s: string, cs: set<char>, from: nat)
    requires from <= |s|
    ensures var r := FirstIndexInFrom(s, cs, from);
            NoneIn(s[from..if r == -1 then |s| else r], cs)
  {
    var r := FirstIndexInFrom(s, cs, from);
    var q := s[from..if r == -1 then |s| else r];
    forall m | 0 <= m < |q| ensures q[m] !in cs {
      assert q[m] == s[from + m];
    }
  }

  /** In a prefix that extends past the last match, the last match is the same. */
  lemma LastIndexInPrefix(s: string, cs: set<char>, n: nat)
    requires LastIndexIn(s, cs) < n <= |s|
    ensures LastIndexIn(s[..n], cs) == LastIndexIn(s, cs)
  {
    var r := LastIndexIn(s, cs);
    var t := LastIndexIn(s[..n], cs);
    if t >= 0 {
      assert s[..n][t] == s[t];
    }
    if r >= 0 {
      assert s[..n][r] == s[r];
    }
  }

  /** Searching a prefix finds what searching the whole string finds inside that prefix. */
  lemma FirstIndexInPrefix(s: string, cs: set<char>, from: nat, n: nat)
    requires from <= n <= |s|
    ensures var r := FirstIndexInFrom(s, cs, from);
            FirstIndexInFrom(s[..n], cs, from) == if 0 <= r < n then r else -1
  {
    var r := FirstIndexInFrom(s, cs, from);
    var t := FirstIndexInFrom(s[..n], cs, from);
    if t != -1 {
      assert s[..n][t] == s[t];
    }
    if 0 <= r < n {
      assert s[..n][r] == s[r];
    }
  }

  /** Length of the text before the first occurrence of `c` (all of `s` when `c` is absent):
      `s.split(c)[0]` is `s[..FirstIndexOf(s, c)]`. */
  function FirstIndexOf(s: string, c: char): (r: nat)
    ensures r <= |s|
    ensures r < |s| ==> s[r] == c
    ensures forall j :: 0 <= j < r ==> s[j] != c
  {
    if |s| == 0 then 0
    else if s[0] == c then 0
    else 1 + FirstIndexOf(s[1..], c)
  }

  /** Python's `str.rfind` for one character: the last index holding `c`, or -1. */
  function RFind(s: string, c: char): (r: int)
    ensures -1 <= r < |s|
    ensures r >= 0 ==> s[r] == c
    ensures forall j :: r < j < |s| ==> s[j] != c
  {
    LastIndexIn(s, {c})
  }

  /** `s.rstrip(cs)`: `s` without its trailing run of characters from `cs`. */
  function RStrip(s: string, cs: set<char>): (r: string)
    ensures StartsWith(s, r)
    ensures |r| > 0 ==> r[|r| - 1] !in cs
    ensures forall j :: |r| <= j < |s| ==> s[j] in cs
  {
    if |s| > 0 && s[|s| - 1] in cs then RStrip(s[..|s| - 1], cs) else s
  }

  /** Appending text without matches leaves the last match where it was. */
  lemma LastIndexInAppend(a: string, t: string, cs: set<char>)
    requires NoneIn(t, cs)
    ensures LastIndexIn(a + t, cs) == LastIndexIn(a, cs)
  {
    var s := a + t;
    var k := LastIndexIn(s, cs);
    if 0 <= k < |a| {
      assert a[k] == s[k];
      forall j | k < j < |a| ensures a[j] !in cs {
        assert a[j] == s[j];
      }
      LastIndexAt(a, cs, k);
    } else if k < 0 {
      forall j | 0 <= j < |a| ensures a[j] !in cs {
        assert a[j] == s[j];
      }
    }
  }

  /** The text after the last match in `a + t`, for `t` without matches, has no matches
      and ends with `t`. */
  lemma TailAfterLastMatch(a: string, t: string, cs: set<char>)
    requires NoneIn(t, cs)
    ensures var s := a + t;
            var last := s[LastIndexIn(s, cs) + 1..];
            NoneIn(last, cs) && EndsWith(last, t)
  {
    LastIndexInAppend(a, t, cs);
    NoneAfterLast(a + t, cs);
    SuffixAfter(a, t, LastIndexIn(a + t, cs) + 1);
  }

  /** A character none of the first `n` positions holds is not in the prefix. */
  lemma CharNotInPrefix(s: string, n: nat, c: char)
    requires n <= |s| && forall j :: 0 <= j < n ==> s[j] != c
    ensures c !in s[..n]
  {
    forall i | 0 <= i < n ensures s[..n][i] != c {
      assert s[..n][i] == s[i];
    }
  }

  /** A character that is not in a text is not in any tail of it. */
  lemma CharNotInTail(s: string, m: nat, c: char)
    requires m <= |s| && c !in s
    ensures c !in s[m..]
  {
    forall i | 0 <= i < |s| - m ensures s[m..][i] != c {
      assert s[m..][i] == s[m + i];
    }
  }

  /** Nothing after the last match is a match. */
  lemma NoneAfterLast(s: string, cs: set<char>)
    ensures NoneIn(s[LastIndexIn(s, cs) + 1..], cs)
  {
    NoneInTail(s, LastIndexIn(s, cs) + 1, cs);
  }

  /** A tail whose characters all lie outside `cs` has no match. */
  lemma NoneInTail(s: string, m: nat, cs: set<char>)
    requires m <= |s|
    requires forall j :: m <= j < |s| ==> s[j] !in cs
    ensures NoneIn(s[m..], cs)
  {
    forall i | 0 <= i < |s| - m ensures s[m..][i] !in cs {
      assert s[m..][i] == s[m + i];
    }
  }

  /** Whatever is cut from the front of `a`, `a + t` still ends with `t`. */
  lemma SuffixAfter(a: string, t: string, m: nat)
    requires m <= |a|
    ensures EndsWith((a + t)[m..], t)
  {
    assert (a + t)[m..] == a[m..] + t;
  }

  /** A suffix of a suffix is a suffix. */
  lemma EndsWithTransitive(s: string, t: string, u: string)
    requires EndsWith(s, t) && EndsWith(t, u)
    ensures EndsWith(s, u)
  {
    assert s[|s| - |u|..] == s[|s| - |t|..][|t| - |u|..];
  }

  /** A suffix that does not contain the separator `c` is a suffix of `a + [c] + b`
      exactly when it is a suffix of `b`. */
  lemma EndsWithAfterSeparator(a: string, c: char, b: string, suffix: string)
    requires c !in suffix
    ensures EndsWith(a + [c] + b, suffix) <==> EndsWith(b, suffix)
  {
    var s := a + [c] + b;
    if |suffix| <= |b| {
      assert s[|s| - |suffix|..] == b[|b| - |suffix|..];
    } else if |suffix| <= |s| {
      var k := |suffix| - |b| - 1;
      assert s[|s| - |suffix|..][k] == c;
    }
  }

  /** Lexicographic order on code points (Python's `<=` on `str`); a prefix comes first. */
  predicate LexLessEq(a: string, b: string)
    ensures StartsWith(b, a) ==> LexLessEq(a, b)
    decreases |a|
  {
    |a| == 0 || (|b| > 0 && (a[0] < b[0] || (a[0] == b[0] && LexLessEq(a[1..], b[1..]))))
  }

  lemma {:induction false} LexReflexive(a: string)
    ensures LexLessEq(a, a)
    decreases |a|
  {
    if |a| > 0 {
      LexReflexive(a[1..]);
    }
  }

  lemma {:induction false} LexTotal(a: string, b: string)
    ensures LexLessEq(a, b) || LexLessEq(b, a)
    decreases |a|
  {
    if |a| > 0 && |b| > 0 && a[0] == b[0] {
      LexTotal(a[1..], b[1..]);
    }
  }

  lemma {:induction false} LexAntisymmetric(a: string, b: string)
    requires LexLessEq(a, b) && LexLessEq(b, a)
    ensures a == b
    decreases |a|
  {
    if |a| > 0 {
      LexAntisymmetric(a[1..], b[1..]);
      assert a == [a[0]] + a[1..] && b == [b[0]] + b[1..];
    }
  }

  lemma {:induction false} LexTransitive(a: string, b: string, c: string)
    requires LexLessEq(a, b) && LexLessEq(b, c)
    ensures LexLessEq(a, c)
    decreases |a|
  {
    if |a| > 0 && a[0] == b[0] && b[0] == c[0] {
      LexTransitive(a[1..], b[1..], c[1..]);
    }
  }

  /** An ASCII capital letter. */
  predicate IsUpper(c: char)
  {
    'A' <= c <= 'Z'
  }

  /** `str.lower` on one character, for the ASCII letters; every other character is
      left as it is. */
  function LowerChar(c: char): char
  {
    if IsUpper(c) then (c as int + 32) as char else c
  }

  /** `s.lower()` for ASCII letters: each capital becomes the letter 32 code points on,
      every other character stays, and no capital is left. */
  function Lower(s: string): (r: string)
    ensures |r| == |s|
    ensures forall i :: 0 <= i < |s| && IsUpper(s[i]) ==> r[i] as int == s[i] as int + 32
    ensures forall i :: 0 <= i < |s| && !IsUpper(s[i]) ==> r[i] == s[i]
    ensures forall i :: 0 <= i < |r| ==> !IsUpper(r[i])
  {
    seq(|s|, i requires 0 <= i < |s| => LowerChar(s[i]))
  }

  /** A text is its own lower-case form exactly when it has no capital, so lower-casing
      twice changes nothing more. */
  lemma LowerFixedPoints(s: string)
    ensures Lower(s) == s <==> forall i :: 0 <= i < |s| ==> !IsUpper(s[i])
    ensures Lower(Lower(s)) == Lower(s)
  {
    if forall i :: 0 <= i < |s| ==> !IsUpper(s[i]) {
      assert forall i :: 0 <= i < |s| ==> Lower(s)[i] == s[i];
    }
    var r := Lower(s);
    assert forall i :: 0 <= i < |r| ==> Lower(r)[i] == r[i];
  }
}

=== FILE: word2pdf.dfy ===
/** The `word2pdf` example's `make_pdf_`: it derives the output file name from the input
    path with `os.path.dirname`, `os.path.basename` and `str.split('.')`, then calls
    `convert` with that explicit output. `os.path` is `ntpath` on Windows and `posixpath`
    on macOS and Linux, so the derivation depends on the platform's path flavour. */
module Word2Pdf {
  import opened Wrappers
  import opened Text
  import opened Paths
  import opened Resolver
  import opened Batch
  import opened Status
  import opened Dispatch

  /** Starts with exactly two separators, as a UNC prefix must. */
  predicate UncShaped(p: string)
  {
    |p| >= 2 && p[0] in Seps(Windows) && p[1] in Seps(Windows) && !(|p| >= 3 && p[2] in Seps(Windows))
  }

  /** The length of the drive `splitdrive` finds. `posixpath` has no drives. `ntpath` finds
      a drive letter (`C:`) or a UNC prefix (`\\server\share`): the server runs to the next
      separator and the share to the one after it or to the end; a missing separator after
      the server, or a doubled one, means there is no drive. */
  function DriveLength(f: Flavour, p: string): (k: nat)
    ensures k <= |p|
    ensures f == Posix ==> k == 0
    ensures f == Windows && !UncShaped(p) ==> k == (if |p| >= 2 && p[1] == ':' then 2 else 0)
    ensures f == Windows && UncShaped(p) ==>
              var i := FirstIndexInFrom(p, Seps(Windows), 2);
              && (k == 0 <==> i == -1 || (i + 1 < |p| && p[i + 1] in Seps(Windows)))
              && (k > 0 ==> 3 <= i < k && NoneIn(p[i + 1..k], Seps(Windows))
                            && (k == |p| || p[k] in Seps(Windows)))
  {
    if f == Posix then 0
    else if UncShaped(p) then
      var i := FirstIndexInFrom(p, Seps(Windows), 2);
      if i == -1 then 0
      else
        var j := FirstIndexInFrom(p, Seps(Windows), i + 1);
        NoneBeforeFirst(p, Seps(Windows), i + 1);
        if j == i + 1 then 0 else if j == -1 then |p| else j
    else if |p| >= 2 && p[1] == ':' then 2
    else 0
  }

  /** The length of everything before the final component: the drive, then the rest of
      the path through its last separator. */
  function FolderLength(f: Flavour, p: string): (k: nat)
    ensures DriveLength(f, p) <= k <= |p|
    ensures NoneIn(p[k..], Seps(f))
    // The final component is as long as it can be: a separator or the drive precedes it.
    ensures k == DriveLength(f, p) || p[k - 1] in Seps(f)
  {
    var d := DriveLength(f, p);
    var i := LastIndexIn(p[d..], Seps(f));
    var k := d + i + 1;
    assert NoneIn(p[k..], Seps(f)) by {
      forall j | 0 <= j < |p[k..]| ensures p[k..][j] !in Seps(f) {
        assert p[k..][j] == p[d..][k - d + j];
      }
    }
    assert i >= 0 ==> p[k - 1] in Seps(f) by {
      if i >= 0 {
        assert p[k - 1] == p[d..][i];
      }
    }
    k
  }

  /** `os.path.basename`: the tail `split` returns. */
  function Basename(f: Flavour, p: string): (r: string)
    ensures EndsWith(p, r) && NoneIn(r, Seps(f))
    ensures |r| <= |p| - DriveLength(f, p)
    // It reaches back to the last separator, or to the drive when there is none.
    ensures |r| == |p| - DriveLength(f, p) || (|r| < |p| && p[|p| - |r| - 1] in Seps(f))
  {
    p[FolderLength(f, p)..]
  }

  /** `os.path.dirname`: the head `split` returns. Both flavours keep the drive and drop
      the head's trailing separators, unless only separators follow the drive
      (`head.rstrip(seps) or head` in `ntpath`, the all-slashes test in `posixpath`). */
  function Dirname(f: Flavour, p: string): (r: string)
    ensures StartsWith(p, r) && StartsWith(r, p[..DriveLength(f, p)])
    ensures |r| <= FolderLength(f, p)
    ensures forall j :: |r| <= j < FolderLength(f, p) ==> p[j] in Seps(f)
    ensures (forall j :: DriveLength(f, p) <= j < FolderLength(f, p) ==> p[j] in Seps(f)) ==>
              r == p[..FolderLength(f, p)]
    ensures (exists j :: DriveLength(f, p) <= j < FolderLength(f, p) && p[j] !in Seps(f)) ==>
              DriveLength(f, p) < |r| && p[|r| - 1] !in Seps(f)
  {
    KeepHead(p, DriveLength(f, p), FolderLength(f, p), Seps(f))
  }

  /** The drive `p[..d]` followed by the head `p[d..k]` without its trailing run of `cs`,
      or by the whole head when nothing else is left of it. */
  function KeepHead(p: string, d: nat, k: nat, cs: set<char>): (r: string)
    requires d <= k <= |p|
    ensures StartsWith(p, r) && StartsWith(r, p[..d])
    ensures |r| <= k
    ensures forall j :: |r| <= j < k ==> p[j] in cs
    ensures (forall j :: d <= j < k ==> p[j] in cs) ==> r == p[..k]
    ensures (exists j :: d <= j < k && p[j] !in cs) ==> d < |r| && p[|r| - 1] !in cs
  {
    var s := p[..k];
    assert s[..d] == p[..d] && s[d..] == p[d..k];
    StripOrKeep(s, d, cs);
    var stripped := RStrip(p[d..k], cs);
    var r := p[..d] + (if stripped != "" then stripped else p[d..k]);
    PrefixOfPrefix(p, k, r);
    r
  }

  /** A prefix of `p[..k]` is a prefix of `p`, and `p` agrees with `p[..k]` below `k`. */
  lemma PrefixOfPrefix(p: string, k: nat, r: string)
    requires k <= |p| && StartsWith(p[..k], r)
    ensures StartsWith(p, r)
    ensures forall j :: 0 <= j < k ==> p[..k][j] == p[j]
  {
    assert p[..|r|] == p[..k][..|r|];
  }

  /** `s[d..].rstrip(cs) or s[d..]` after `s[..d]`: a prefix of `s` that keeps `s[..d]`,
      followed in `s` by characters of `cs` only; it is all of `s` when `s[d..]` is all
      `cs`, and otherwise ends in a character outside `cs`. */
  lemma StripOrKeep(s: string, d: nat, cs: set<char>)
    requires d <= |s|
    ensures var stripped := RStrip(s[d..], cs);
            var kept := s[..d] + (if stripped != "" then stripped else s[d..]);
            && StartsWith(s, kept) && d <= |kept|
            && (forall j :: |kept| <= j < |s| ==> s[j] in cs)
            && ((forall j :: d <= j < |s| ==> s[j] in cs) ==> kept == s)
            && ((exists j :: d <= j < |s| && s[j] !in cs) ==> d < |kept| && s[|kept| - 1] !in cs)
  {
    var head := s[d..];
    var stripped := RStrip(head, cs);
    assert s == s[..d] + head;
    if stripped != "" {
      assert s[..d + |stripped|] == s[..d] + stripped;
      forall j | d + |stripped| <= j < |s| ensures s[j] in cs {
        assert s[j] == head[j - d];
      }
      assert s[d + |stripped| - 1] == stripped[|stripped| - 1];
    } else {
      forall j | d <= j < |s| ensures s[j] in cs {
        assert s[j] == head[j - d];
      }
    }
  }

  /** `ntpath.split` and `posixpath.split` lose nothing but separators: the path is the
      folder, a run of separators, and the final component. */
  lemma SplitKeepsPath(f: Flavour, p: string)
    ensures var folder := Dirname(f, p);
            var gap := p[|folder|..FolderLength(f, p)];
            && p == folder + gap + Basename(f, p)
            && forall j :: 0 <= j < |gap| ==> gap[j] in Seps(f)
  {
    GapOfSeps(p, Dirname(f, p), FolderLength(f, p), Seps(f));
  }

  /** A prefix `r` of `p` followed in `p` by characters of `cs` up to `k` splits `p` into
      `r`, a run of `cs`, and the rest from `k`. */
  lemma GapOfSeps(p: string, r: string, k: nat, cs: set<char>)
    requires StartsWith(p, r) && |r| <= k <= |p|
    requires forall j :: |r| <= j < k ==> p[j] in cs
    ensures var gap := p[|r|..k];
            && p == r + gap + p[k..]
            && forall j :: 0 <= j < |gap| ==> gap[j] in cs
  {
    var gap := p[|r|..k];
    forall j | 0 <= j < |gap| ensures gap[j] in cs {
      assert gap[j] == p[|r| + j];
    }
    assert p == p[..|r|] + gap + p[k..];
  }

  /** `os.path.basename(input.split('.')[0])`: the final component of the text before the
      first dot anywhere in the path. It has neither dots nor separators, ends at that dot,
      and starts after a separator or the drive. */
  function FileStem(f: Flavour, input: string): (r: string)
    ensures '.' !in r && NoneIn(r, Seps(f))
    ensures var n := FirstIndexOf(input, '.');
            && EndsWith(input[..n], r)
            && |r| <= n - DriveLength(f, input[..n])
            && (|r| == n - DriveLength(f, input[..n]) || (|r| < n && input[n - |r| - 1] in Seps(f)))
  {
    var n := FirstIndexOf(input, '.');
    BasenameBeforeDot(f, input, n);
    Basename(f, input[..n])
  }

  /** The base name of the text before the first dot has no dot, and what precedes it in
      that text precedes it in the whole input. */
  lemma BasenameBeforeDot(f: Flavour, input: string, n: nat)
    requires n == FirstIndexOf(input, '.')
    ensures var r := Basename(f, input[..n]);
            && '.' !in r
            && (|r| == n - DriveLength(f, input[..n]) || (|r| < n && input[n - |r| - 1] in Seps(f)))
  {
    var prefix := input[..n];
    var r := Basename(f, prefix);
    CharNotInPrefix(input, n, '.');
    CharNotInTail(prefix, |prefix| - |r|, '.');
    assert r == prefix[|prefix| - |r|..];
    assert |r| < n ==> input[n - |r| - 1] == prefix[n - |r| - 1];
  }

  /** The output path `make_pdf_` derives: `{dirname}\{name}.pdf`, with a backslash on
      every platform. What follows the folder and its backslash has no separator and ends
      with the name and `.pdf`. */
  function PdfPathFor(f: Flavour, input: string): (r: string)
    ensures StartsWith(r, Dirname(f, input) + "\\")
    ensures |Dirname(f, input)| < |r| && NoneIn(r[|Dirname(f, input)| + 1..], Seps(f))
    ensures EndsWith(r, FileStem(f, input) + PdfSuffix)
  {
    PdfInFolder(f, Dirname(f, input), FileStem(f, input))
  }

  /** `{folder}\{stem}.pdf` for a stem without separators. */
  function PdfInFolder(f: Flavour, folder: string, stem: string): (r: string)
    requires NoneIn(stem, Seps(f))
    ensures StartsWith(r, folder + "\\")
    ensures |folder| < |r| && NoneIn(r[|folder| + 1..], Seps(f))
    ensures EndsWith(r, stem + PdfSuffix)
  {
    FileInFolder(f, folder, stem);
    folder + "\\" + stem + PdfSuffix
  }

  /** The text `folder\stem.pdf` for a stem without separators lies after `folder\`. */
  lemma FileInFolder(f: Flavour, folder: string, stem: string)
    requires NoneIn(stem, Seps(f))
    ensures var r := folder + "\\" + stem + PdfSuffix;
            && StartsWith(r, folder + "\\")
            && NoneIn(r[|folder| + 1..], Seps(f))
            && EndsWith(r, stem + PdfSuffix)
  {
    var file := stem + PdfSuffix;
    assert NoneIn(file, Seps(f)) by {
      forall k | 0 <= k < |file| ensures file[k] !in Seps(f) {
        if k >= |stem| {
          assert file[k] == PdfSuffix[k - |stem|];
        }
      }
    }
    var r := folder + "\\" + file;
    assert r[|folder| + 1..] == file;
    assert r[..|folder| + 1] == folder + "\\";
    assert r[|r| - |file|..] == file;
  }

  /** `make_pdf_(input)`: convert the input, unchanged, to the output path derived with the
      platform's `os.path`, with Word not kept active. */
  function MakePdf(platform: string, cwd: Path, fs: FileSystem, input: string, stderr: seq<Line>)
    : (r: Result<Run, Failure>)
    requires ValidPath(FlavourOf(platform), cwd)
    // The derived output always passes the library's `.pdf` check.
    ensures r != Err(InvalidPaths(OutputNotPdf))
    // An unknown platform is only reported once both paths have resolved.
    ensures r == Err(NotImplemented) <==>
              ResolvePaths(FlavourOf(platform), cwd, fs, input, Some(PdfPathFor(FlavourOf(platform), input))).Ok?
              && platform != "darwin" && platform != "win32"
  {
    var f := FlavourOf(platform);
    DerivedOutputPassesPdfCheck(f, cwd, fs, input);
    Convert(platform, cwd, fs, input, Some(PdfPathFor(f, input)), false, stderr)
  }

  /** Cutting a path anywhere inside its final component leaves its drive alone. */
  lemma DriveOfPrefix(f: Flavour, p: string, n: nat)
    requires FolderLength(f, p) <= n <= |p|
    ensures DriveLength(f, p[..n]) == DriveLength(f, p)
  {
    if f == Windows {
      if UncShaped(p) {
        UncDriveOfPrefix(p, n);
      } else if |p| >= 2 && p[1] == ':' {
        assert p[..n][1] == ':';
      }
    }
  }

  lemma UncDriveOfPrefix(p: string, n: nat)
    requires UncShaped(p)
    requires FolderLength(Windows, p) <= n <= |p|
    ensures DriveLength(Windows, p[..n]) == DriveLength(Windows, p)
  {
    var seps := Seps(Windows);
    var t := p[..n];
    var a := FirstIndexInFrom(p, seps, 2);
    if a == -1 {
      assert p[0..][1] in seps;
      assert UncShaped(t);
      FirstIndexInPrefix(p, seps, 2, n);
    } else {
      var b := FirstIndexInFrom(p, seps, a + 1);
      if b == a + 1 {
        assert p[0..][b] in seps;
        assert UncShaped(t);
        FirstIndexInPrefix(p, seps, 2, n);
        FirstIndexInPrefix(p, seps, a + 1, n);
      } else if b == -1 {
        assert t == p;
      } else {
        assert p[b..][0] in seps;
        assert UncShaped(t);
        FirstIndexInPrefix(p, seps, 2, n);
        FirstIndexInPrefix(p, seps, a + 1, n);
      }
    }
  }

  /** Cutting a path inside its final component leaves its folder alone. */
  lemma FolderOfPrefix(f: Flavour, p: string, n: nat)
    requires FolderLength(f, p) <= n <= |p|
    ensures FolderLength(f, p[..n]) == FolderLength(f, p)
  {
    var d := DriveLength(f, p);
    DriveOfPrefix(f, p, n);
    SliceOfPrefix(p, d, n);
    LastIndexInPrefix(p[d..], Seps(f), n - d);
  }

  /** Cutting a path inside its final component cuts its base name the same way. */
  lemma BasenameOfPrefix(f: Flavour, p: string, n: nat)
    requires FolderLength(f, p) <= n <= |p|
    ensures Basename(f, p[..n]) == p[FolderLength(f, p)..n]
  {
    FolderOfPrefix(f, p, n);
  }

  lemma SliceOfPrefix(p: string, d: nat, n: nat)
    requires d <= n <= |p|
    ensures p[..n][d..] == p[d..][..n - d]
  {
  }

  /** When the path's first dot lies in its final component, the name is that component
      up to its own first dot: `a.b.docx` gives `a`. */
  lemma FirstDotInFinalComponent(f: Flavour, input: string)
    requires '.' !in input[..FolderLength(f, input)]
    ensures FileStem(f, input) == Basename(f, input)[..FirstIndexOf(Basename(f, input), '.')]
  {
    var folder := FolderLength(f, input);
    FirstIndexOfAfter(input, '.', folder);
    var k := FirstIndexOf(input, '.');
    BasenameOfPrefix(f, input, k);
    assert input[folder..k] == input[folder..][..k - folder];
  }

  /** When the text of a folder already has a dot, the name is cut from the folder text
      at that dot, whatever file follows: every document there derives the same name, so
      their PDFs overwrite one another. */
  lemma DotInFolderFixesName(f: Flavour, folder: string, a: string, b: string)
    requires '.' in folder
    ensures FileStem(f, folder + a) == FileStem(f, folder + b) == FileStem(f, folder)
    ensures EndsWith(folder[..FirstIndexOf(folder, '.')], FileStem(f, folder + a))
  {
    var n := FirstIndexOf(folder, '.');
    PrefixBeforeDot(folder, a, n);
    PrefixBeforeDot(folder, b, n);
  }

  /** Appending text after a dot does not move the first dot. */
  lemma PrefixBeforeDot(folder: string, a: string, n: nat)
    requires '.' in folder && n == FirstIndexOf(folder, '.')
    ensures FirstIndexOf(folder + a, '.') == n && (folder + a)[..n] == folder[..n]
  {
    var s := folder + a;
    assert n < |folder|;
    assert s[n] == folder[n];
    forall j | 0 <= j < n ensures s[j] != '.' {
      assert s[j] == folder[j];
    }
    FirstIndexOfAt(s, '.', n);
  }

  /** A path without any dot keeps its whole final component as the name. */
  lemma NoDotKeepsBasename(f: Flavour, input: string)
    requires '.' !in input
    ensures FileStem(f, input) == Basename(f, input)
  {
    assert input[..FirstIndexOf(input, '.')] == input;
  }

  // Each example below receives its literal through `requires p == "..."` rather than
  // writing it in the `ensures`: the solver then unfolds the text only where a step needs
  // it, which keeps these proofs cheap.

  /** On Windows a bare file name has an empty folder, so the output lands at the root of
      the current drive: `a.b.docx` gives `\a.pdf`. */
  lemma BareNameExample(p: string)
    requires p == "a.b.docx"
    ensures PdfPathFor(Windows, p) == "\\a.pdf"
  {
    BareNameDirname(p);
    BareNameStem(p);
    BareNameJoin(Dirname(Windows, p), FileStem(Windows, p));
  }

  lemma BareNameJoin(folder: string, stem: string)
    requires folder == "" && stem == "a"
    ensures folder + "\\" + stem + PdfSuffix == "\\a.pdf"
  {
  }

  lemma BareNameDirname(p: string)
    requires p == "a.b.docx"
    ensures Dirname(Windows, p) == ""
  {
    assert !UncShaped(p) && p[1] != ':';
    assert DriveLength(Windows, p) == 0;
    assert NoneIn(p, Seps(Windows));
    assert FolderLength(Windows, p) == 0;
  }

  lemma BareNameStem(p: string)
    requires p == "a.b.docx"
    ensures FileStem(Windows, p) == "a"
  {
    FirstIndexOfAt(p, '.', 1);
    var prefix := p[..1];
    assert prefix == "a";
    assert DriveLength(Windows, prefix) == 0;
    assert FolderLength(Windows, prefix) == 0;
  }

  /** A dot in a folder name cuts the name there: `C:\my.dir\x.docx` gives
      `C:\my.dir\my.pdf`. */
  lemma DottedFolderExample(p: string)
    requires p == "C:\\my.dir\\x.docx"
    ensures PdfPathFor(Windows, p) == "C:\\my.dir\\my.pdf"
  {
    DottedFolderDirname(p);
    DottedFolderStem(p);
    DottedFolderJoin(Dirname(Windows, p), FileStem(Windows, p));
  }

  lemma DottedFolderJoin(folder: string, stem: string)
    requires folder == "C:\\my.dir" && stem == "my"
    ensures folder + "\\" + stem + PdfSuffix == "C:\\my.dir\\my.pdf"
  {
  }

  lemma DottedFolderDirname(p: string)
    requires p == "C:\\my.dir\\x.docx"
    ensures Dirname(Windows, p) == "C:\\my.dir"
  {
    assert !UncShaped(p);
    assert DriveLength(Windows, p) == 2;
    LastIndexAt(p[2..], Seps(Windows), 7);
    assert FolderLength(Windows, p) == 10;
    assert p[2..10] == "\\my.dir\\";
    assert RStrip("\\my.dir\\", Seps(Windows)) == "\\my.dir";
  }

  lemma DottedFolderStem(p: string)
    requires p == "C:\\my.dir\\x.docx"
    ensures FileStem(Windows, p) == "my"
  {
    FirstIndexOfAt(p, '.', 5);
    var prefix := p[..5];
    assert prefix == "C:\\my";
    assert !UncShaped(prefix);
    assert DriveLength(Windows, prefix) == 2;
    LastIndexAt(prefix[2..], Seps(Windows), 0);
    assert FolderLength(Windows, prefix) == 3;
  }

  /** On a network share the drive is `\\server\share`, and `os.path.dirname` keeps the
      separator after it, so the derived path has a doubled backslash:
      `\\s\t\x.docx` gives `\\s\t\\x.pdf`. */
  lemma ShareExample(p: string)
    requires p == "\\\\s\\t\\x.docx"
    ensures PdfPathFor(Windows, p) == "\\\\s\\t\\\\x.pdf"
  {
    ShareDirname(p);
    ShareStem(p);
    ShareJoin(Dirname(Windows, p), FileStem(Windows, p));
  }

  lemma ShareJoin(folder: string, stem: string)
    requires folder == "\\\\s\\t\\" && stem == "x"
    ensures folder + "\\" + stem + PdfSuffix == "\\\\s\\t\\\\x.pdf"
  {
  }

  /** The UNC drive of the share's paths, and of their prefixes through `x`. */
  lemma ShareDrive(p: string)
    requires |p| >= 7 && p[..7] == "\\\\s\\t\\x"
    ensures DriveLength(Windows, p) == 5
  {
    assert UncShaped(p);
    assert p[2] == 's' && p[3] == '\\' && p[4] == 't' && p[5] == '\\';
    assert FirstIndexInFrom(p, Seps(Windows), 2) == 3;
    assert FirstIndexInFrom(p, Seps(Windows), 4) == 5;
  }

  lemma ShareDirname(p: string)
    requires p == "\\\\s\\t\\x.docx"
    ensures Dirname(Windows, p) == "\\\\s\\t\\"
  {
    ShareDrive(p);
    LastIndexAt(p[5..], Seps(Windows), 0);
    assert FolderLength(Windows, p) == 6;
    assert p[5..6] == "\\";
    assert RStrip("\\", Seps(Windows)) == "";
  }

  lemma ShareStem(p: string)
    requires p == "\\\\s\\t\\x.docx"
    ensures FileStem(Windows, p) == "x"
  {
    FirstIndexOfAt(p, '.', 7);
    var prefix := p[..7];
    assert prefix == "\\\\s\\t\\x";
    ShareDrive(prefix);
    LastIndexAt(prefix[5..], Seps(Windows), 0);
    assert FolderLength(Windows, prefix) == 6;
  }

  /** On Windows a document named after a share's root, `\\s\t.docx`, is all drive: its
      folder is the whole text and the text before the dot is all drive too, so the name is
      empty and the output is `\\s\t.docx\.pdf`. */
  lemma ShareRootExample(p: string)
    requires p == "\\\\s\\t.docx"
    ensures FileStem(Windows, p) == ""
    ensures PdfPathFor(Windows, p) == "\\\\s\\t.docx\\.pdf"
  {
    ShareRootStem(p);
    ShareRootDirname(p);
    ShareRootJoin(Dirname(Windows, p), FileStem(Windows, p));
  }

  lemma ShareRootJoin(folder: string, stem: string)
    requires folder == "\\\\s\\t.docx" && stem == ""
    ensures folder + "\\" + stem + PdfSuffix == "\\\\s\\t.docx\\.pdf"
  {
  }

  lemma ShareRootStem(p: string)
    requires p == "\\\\s\\t.docx"
    ensures FileStem(Windows, p) == ""
  {
    FirstIndexOfAt(p, '.', 5);
    var prefix := p[..5];
    assert prefix == "\\\\s\\t";
    assert UncShaped(prefix);
    assert FirstIndexInFrom(prefix, Seps(Windows), 2) == 3;
    assert FirstIndexInFrom(prefix, Seps(Windows), 4) == -1;
    assert DriveLength(Windows, prefix) == 5;
  }

  lemma ShareRootDirname(p: string)
    requires p == "\\\\s\\t.docx"
    ensures Dirname(Windows, p) == p
  {
    assert UncShaped(p);
    assert FirstIndexInFrom(p, Seps(Windows), 2) == 3;
    assert FirstIndexInFrom(p, Seps(Windows), 4) == -1;
    assert DriveLength(Windows, p) == |p|;
  }

  /** On macOS and Linux a backslash is an ordinary character, so it stays in the base
      name, and the derived path starts with the literal backslash after an empty folder:
      `a\b.docx` gives `\a\b.pdf`. */
  lemma PosixBackslashExample(p: string)
    requires p == "a\\b.docx"
    ensures PdfPathFor(Posix, p) == "\\a\\b.pdf"
  {
    PosixBackslashDirname(p);
    PosixBackslashStem(p);
    PosixBackslashJoin(Dirname(Posix, p), FileStem(Posix, p));
  }

  lemma PosixBackslashJoin(folder: string, stem: string)
    requires folder == "" && stem == "a\\b"
    ensures folder + "\\" + stem + PdfSuffix == "\\a\\b.pdf"
  {
  }

  lemma PosixBackslashDirname(p: string)
    requires p == "a\\b.docx"
    ensures Dirname(Posix, p) == ""
  {
    assert NoneIn(p, Seps(Posix));
    assert FolderLength(Posix, p) == 0;
  }

  lemma PosixBackslashStem(p: string)
    requires p == "a\\b.docx"
    ensures FileStem(Posix, p) == "a\\b"
  {
    FirstIndexOfAt(p, '.', 3);
    var prefix := p[..3];
    assert prefix == "a\\b";
    assert NoneIn(prefix, Seps(Posix));
    assert FolderLength(Posix, prefix) == 0;
  }

  /** On macOS and Linux the folder is joined with a backslash, which is no separator
      there: `x/a.docx` gives `x\a.pdf`, a file named `x\a.pdf` in the working directory
      rather than `a.pdf` inside `x`. */
  lemma PosixFolderExample(p: string, cwd: Path)
    requires p == "x/a.docx" && ValidPath(Posix, cwd)
    ensures PdfPathFor(Posix, p) == "x\\a.pdf"
    ensures Resolve(Posix, cwd, "x\\a.pdf") == cwd + ["x\\a.pdf"]
  {
    PosixFolderDirname(p);
    PosixFolderStem(p);
    PosixFolderJoin(Dirname(Posix, p), FileStem(Posix, p));
    PosixFolderResolve(cwd, "x\\a.pdf");
  }

  lemma PosixFolderJoin(folder: string, stem: string)
    requires folder == "x" && stem == "a"
    ensures folder + "\\" + stem + PdfSuffix == "x\\a.pdf"
  {
  }

  lemma PosixFolderDirname(p: string)
    requires p == "x/a.docx"
    ensures Dirname(Posix, p) == "x"
  {
    LastIndexAt(p, Seps(Posix), 1);
    assert FolderLength(Posix, p) == 2;
    assert p[0..2] == "x/";
    assert RStrip("x/", Seps(Posix)) == "x";
  }

  lemma PosixFolderStem(p: string)
    requires p == "x/a.docx"
    ensures FileStem(Posix, p) == "a"
  {
    FirstIndexOfAt(p, '.', 3);
    var prefix := p[..3];
    assert prefix == "x/a";
    LastIndexAt(prefix, Seps(Posix), 1);
    assert FolderLength(Posix, prefix) == 2;
  }

  lemma PosixFolderResolve(cwd: Path, s: string)
    requires s == "x\\a.pdf" && ValidPath(Posix, cwd)
    ensures Resolve(Posix, cwd, s) == cwd + [s]
  {
    assert NoneIn(s, Seps(Posix)) && !IsAbsolute(Posix, s);
    assert LastIndexIn(s, Seps(Posix)) == -1;
    assert Split(s, Seps(Posix)) == [s];
    assert Normalise(cwd, [s]) == Descend(Normalise(cwd, []), s);
  }

  /** The derived output ends in `.pdf` however the working directory and the path
      resolve, so the library's check on an explicit output never rejects it. */
  lemma DerivedOutputPassesPdfCheck(f: Flavour, cwd: Path, fs: FileSystem, input: string)
    requires ValidPath(f, cwd)
    ensures EndsWith(Name(Resolve(f, cwd, PdfPathFor(f, input))), PdfSuffix)
    ensures ResolvePaths(f, cwd, fs, input, Some(PdfPathFor(f, input))) != Err(OutputNotPdf)
  {
    DerivedNameEndsPdf(f, cwd, input);
    ResolveFailures(f, cwd, fs, input, Some(PdfPathFor(f, input)));
  }

  lemma DerivedNameEndsPdf(f: Flavour, cwd: Path, input: string)
    requires ValidPath(f, cwd)
    ensures EndsWith(Name(Resolve(f, cwd, PdfPathFor(f, input))), PdfSuffix)
  {
    if f == Windows {
      WindowsDerivedName(cwd, input);
      PdfNameEndsPdf(Name(Resolve(f, cwd, PdfPathFor(f, input))), FileStem(f, input));
    } else {
      PosixDerivedName(cwd, input);
      PdfNameEndsPdf(Name(Resolve(f, cwd, PdfPathFor(f, input))), FileStem(f, input));
    }
  }

  /** A name that is `stem.pdf`, or ends with `\stem.pdf`, ends with `.pdf`. */
  lemma PdfNameEndsPdf(name: string, stem: string)
    requires name == stem + PdfSuffix || EndsWith(name, "\\" + stem + PdfSuffix)
    ensures EndsWith(name, PdfSuffix)
  {
    var file := stem + PdfSuffix;
    assert EndsWith(file, PdfSuffix) by {
      assert file[|file| - |PdfSuffix|..] == PdfSuffix;
    }
    if name != file {
      assert "\\" + stem + PdfSuffix == "\\" + file;
      assert EndsWith("\\" + file, file) by {
        assert ("\\" + file)[1..] == file;
      }
      EndsWithTransitive(name, "\\" + file, file);
    }
    EndsWithTransitive(name, file, PdfSuffix);
  }

  /** On Windows the resolved output is named exactly `stem.pdf`. */
  lemma WindowsDerivedName(cwd: Path, input: string)
    requires ValidPath(Windows, cwd)
    ensures Name(Resolve(Windows, cwd, PdfPathFor(Windows, input))) == FileStem(Windows, input) + PdfSuffix
  {
    var file := FileStem(Windows, input) + PdfSuffix;
    var folder := Dirname(Windows, input);
    assert PdfPathFor(Windows, input) == folder + ['\\'] + file;
    DerivedNameIsComponent(input);
    ResolveName(Windows, cwd, folder, '\\', file);
  }

  /** On macOS and Linux the resolved output's name ends with a backslash and `stem.pdf`,
      after whatever the folder's last component contributes. */
  lemma PosixDerivedName(cwd: Path, input: string)
    requires ValidPath(Posix, cwd)
    ensures EndsWith(Name(Resolve(Posix, cwd, PdfPathFor(Posix, input))), "\\" + FileStem(Posix, input) + PdfSuffix)
  {
    var stem := FileStem(Posix, input);
    BackslashFile(stem);
    BackslashJoin(Dirname(Posix, input), stem);
    ResolveTail(Posix, cwd, Dirname(Posix, input), "\\" + stem + PdfSuffix);
  }

  /** `\stem.pdf` has no `/` when the stem has none. */
  lemma BackslashFile(stem: string)
    requires NoneIn(stem, Seps(Posix))
    ensures NoneIn("\\" + stem + PdfSuffix, Seps(Posix)) && |"\\" + stem + PdfSuffix| >= 3
  {
    var t := "\\" + stem + PdfSuffix;
    forall k | 0 <= k < |t| ensures t[k] !in Seps(Posix) {
      if 1 <= k <= |stem| {
        assert t[k] == stem[k - 1];
      } else if k > |stem| {
        assert t[k] == PdfSuffix[k - 1 - |stem|];
      }
    }
  }

  lemma BackslashJoin(folder: string, stem: string)
    ensures folder + "\\" + stem + PdfSuffix == folder + ("\\" + stem + PdfSuffix)
  {
  }

  /** On Windows the derived file name is a valid component ending `.pdf`. */
  lemma DerivedNameIsComponent(input: string)
    ensures var name := FileStem(Windows, input) + PdfSuffix;
            ValidComponent(Windows, name) && EndsWith(name, PdfSuffix)
  {
    var stem := FileStem(Windows, input);
    var name := stem + PdfSuffix;
    assert NoneIn(name, Seps(Windows)) by {
      forall k | 0 <= k < |name| ensures name[k] !in Seps(Windows) {
        if k >= |stem| {
          assert name[k] == PdfSuffix[k - |stem|];
        }
      }
    }
    assert |name| >= 4 && name[|name| - 4..] == PdfSuffix;
  }

  /** On Windows, for a document input whose derived output is not a directory, the
      example converts the resolved input to the resolved derived path and quits Word. */
  lemma MakePdfOnWindows(cwd: Path, fs: FileSystem, input: string, stderr: seq<Line>)
    requires ValidPath(Windows, cwd)
    ensures var source := Resolve(Windows, cwd, input);
            var target := Resolve(Windows, cwd, PdfPathFor(Windows, input));
            source !in fs.dirs && EndsWith(Name(source), DocxSuffix) && target !in fs.dirs ==>
              MakePdf("win32", cwd, fs, input, stderr) == Ok(WindowsRun([Export(source, target), Quit]))
  {
    var out := PdfPathFor(Windows, input);
    var source := Resolve(Windows, cwd, input);
    var target := Resolve(Windows, cwd, out);
    if source !in fs.dirs && EndsWith(Name(source), DocxSuffix) && target !in fs.dirs {
      assert MakePdf("win32", cwd, fs, input, stderr) == Convert("win32", cwd, fs, input, Some(out), false, stderr);
      DerivedDescriptor(cwd, fs, input);
      WindowsSingleFile(cwd, fs, input, Some(out), false, stderr, source, target);
    }
  }

  /** Resolution keeps the input and the derived output as they resolve. */
  lemma DerivedDescriptor(cwd: Path, fs: FileSystem, input: string)
    requires ValidPath(Windows, cwd)
    ensures var source := Resolve(Windows, cwd, input);
            var target := Resolve(Windows, cwd, PdfPathFor(Windows, input));
            source !in fs.dirs && EndsWith(Name(source), DocxSuffix) && target !in fs.dirs ==>
              ResolvePaths(Windows, cwd, fs, input, Some(PdfPathFor(Windows, input))) == Ok(Descriptor(false, source, target))
  {
    var source := Resolve(Windows, cwd, input);
    var target := Resolve(Windows, cwd, PdfPathFor(Windows, input));
    if source !in fs.dirs && EndsWith(Name(source), DocxSuffix) && target !in fs.dirs {
      DerivedOutputPassesPdfCheck(Windows, cwd, fs, input);
      ExplicitPdfOutput(Windows, cwd, fs, input, PdfPathFor(Windows, input));
    }
  }
}

=== FILE: wrappers.dfy ===
/** Optional values and success/failure results shared by the other modules. */
module Wrappers {

  /** An argument that may be absent (Python's `None`). */
  datatype Option<+T> = None | Some(value: T)

  /** The outcome of an operation that either yields a value or fails with an error. */
  datatype Result<+T, +E> = Ok(value: T) | Err(error: E)
}
